=== FILE: README.md ===
# shortsAI core, modelled in Dafny

shortsAI turns a plain-text script into a vertical YouTube Short. The
script is split into pages on blank lines. Each page gets:

- an AI-generated image (fal.ai or Replicate, with a placeholder fallback);
- a narration from a VOICEVOX speech server (with silent fallbacks and a
  text-length estimate);
- a duration.

The renderer then lays the pages out on a white 1080x1920 canvas and
places every page clip and its narration at a shared start offset. The
result can optionally be uploaded through YouTube's resumable upload.

This project models the decision and arithmetic rules of those five
modules as pure Dafny functions. HTTP replies, file existence and
library behaviour are input values. It proves the properties the code
promises:

- the timeline cursor and the running total agree;
- clips abut;
- the layer order and the page-number-dependent geometry hold;
- the estimator's bounds and monotonicity hold;
- the synthesis fallback ladder behaves as described;
- the query override rule touches only the scale fields;
- parsing a joined script gives its pages back;
- the output file name encodes the page count and the truncated total;
- the keyword priority of the default prompt holds;
- the Replicate poll state machine behaves as described;
- the upload retry cap and backoff schedule hold.

Files, one module each:

| file | module | models |
|---|---|---|
| common.dfy | `Common` | `Option`, the `Observed` outcome of loops over finite observations, Python `int()` as truncation |
| pystr.dfy | `PyStr` | the Python `str` operations the code uses: `isspace`, `strip`, `in`, `split`, `join`, `count`, `replace`, `str(n)`, `f"{n:02d}"` |
| voice.dfy | `Voice` | `voice_synthesizer.py` |
| video.dfy | `Video` | `video_generator.py` |
| pipeline.dfy | `Pipeline` | the orchestration in `main.py` |
| imagegen.dfy | `ImageGen` | `image_generator.py` |
| upload.dfy | `Upload` | `youtube_uploader.py` |

Modelling conventions:

- Floats are exact reals. Python's `int(x)` is truncation toward zero
  (`Common.Trunc`).
- "Path exists" is membership in a set `existing`.
- Each external call is replaced by its observed outcome:
  - `Voice.SynthesisEnv` for the speech server;
  - `Video.RenderEnv` for MoviePy;
  - `ImageGen.ImageEnv` for the image providers;
  - `Upload.UploadEnv` for the YouTube client.
- The two unbounded loops are driven by a finite sequence of observed
  replies. A loop that has not returned when they run out ends as
  `Undecided`. The two loops are the Replicate status poll and the
  resumable upload.
- An exception the source catches is modelled as the branch it leads to.

Two rules of the code are easy to misread. The model follows the code
in both.

- **Page-1 image position.** The image of page 1 is placed with its top
  at `0.8·H − side/2` (video_generator.py:304). Other pages put the top
  at `0.2·H` (video_generator.py:311).
- **When the estimator is used.** `main` uses the text-length estimate
  only when `synthesize_voice` returns False (main.py:171-174).
  `synthesize_voice` returns True after every successful write of the
  silent fallback (voice_synthesizer.py:197). Any other failure returns
  `(True, 3.0)` when the silent file is written. So the estimate decides a page's duration only when the
  silent file cannot be written either
  (`Pipeline.EstimateUnusedWhileSilenceWritable`).

## Model

| member | source | states |
|---|---|---|
| Common.Trunc | video_generator.py:301-311 | `int()` of a float truncates toward zero: for non-negative x the result is the floor, within 1 below x |
| PyStr.Strip | main.py:53-56 | `strip()` yields a string with no whitespace at either end, lying after the leading whitespace |
| PyStr.StripIsInfix | main.py:56 | the stripped string is the infix of the input that starts after the leading whitespace |
| PyStr.StripDropsOnlySpaces | main.py:56 | every character `strip` removes is whitespace |
| PyStr.StripFixedIffTrimmed | main.py:56 | `s.strip() == s` exactly when `s` has no whitespace at either end |
| PyStr.BlankIffAllSpace | voice_synthesizer.py:66 | `not text.strip()` holds exactly when every character is whitespace |
| PyStr.StripIdempotent | main.py:53-56 | stripping twice equals stripping once |
| PyStr.CountChar | voice_synthesizer.py:226 | `count(c)` is at most the length, and zero exactly when `c` does not occur |
| PyStr.RemoveChar | voice_synthesizer.py:222 | `replace(c, '')` shortens the string by the count of `c`, removes every `c` and keeps every other character's count |
| PyStr.FindFirst | image_generator.py:227 | the result is the first index where the substring occurs; `None` means it occurs nowhere |
| PyStr.ContainsIffOccurs | image_generator.py:227 | `t in s` holds exactly when `t` occurs at some index of `s` |
| PyStr.NotContainsInfix | main.py:56 | a slice of a string that lacks `t` lacks `t` too |
| PyStr.Split | main.py:56 | `split(sep)` gives at least one piece, and no piece contains the separator |
| PyStr.JoinSplit | main.py:56 | joining the pieces of `split(sep)` with `sep` gives back the original string |
| PyStr.SplitStep | main.py:56 | split yields the text before the first separator, then the split of what follows |
| PyStr.Digits | main.py:198 | `str(n)` is a non-empty string of decimal digits, one digit exactly when n < 10, two for 10 ≤ n < 100, and starting with 0 only for 0 itself |
| PyStr.Pad2 | main.py:157 | `f"{n:02d}"` is a string of at least two decimal digits, exactly two below 100, and has no zero padding beyond width two |
| PyStr.ParseDigitsOfDigits | main.py:198 | reading back `str(n)` gives `n` |
| PyStr.ParseIntOfIntToString | main.py:198 | reading back `str(i)` gives `i`, negative values included |
| PyStr.ParseDigitsOfPad2 | main.py:157 | reading back `f"{n:02d}"` gives `n` |
| PyStr.Pad2Injective | main.py:157 | distinct page numbers get distinct two-digit labels |
| PyStr.TakeDigits | main.py:198 | the result is the longest all-digit prefix |
| PyStr.TakeDigitsOfConcat | main.py:198 | the digit prefix of digits followed by a non-digit is exactly those digits |
| Voice.ClampedEstimate | voice_synthesizer.py:222-230 | the estimate before the speed adjustment lies in [1, 10] s and is 0.4 s per spoken character plus 0.3 s per 、。！？, clamped |
| Voice.EstimateDuration | voice_synthesizer.py:213-235 | with a positive speed scale every estimate is positive; blank text estimates to exactly 0.5 s; other text estimates to the clamped value divided by the speed scale, in [1/speed, 10/speed] |
| Voice.EstimateSpeedMonotone | voice_synthesizer.py:232-233 | a larger speed scale never gives a longer estimate for the same text |
| Voice.SetIfChanged | voice_synthesizer.py:107-108 | a field is written only when its scale is not 1.0; every other field keeps its value |
| Voice.AdjustQueryAt | voice_synthesizer.py:106-121 | after the four adjustments a field is present iff it was already present or it is an overridden scale field; overridden fields hold the configured scale, others are unchanged |
| Voice.ApplyScales | voice_synthesizer.py:106-123 | only the four scale fields whose configured value is not 1.0 are written; all other query fields are unchanged |
| Voice.AdjustQuery | voice_synthesizer.py:106-121 | the adjusted query keeps every key of the server's query and adds at most the four scale keys |
| Voice.AdjustedQueryEmptyIff | voice_synthesizer.py:72-75 | the adjusted query is empty, and so treated as a failed query, exactly when the server's query was empty and all four scales are 1.0 |
| Voice.MeasuredDuration | voice_synthesizer.py:162-173 | the measured duration is frames / frame rate, or 3.0 when the file cannot be read or the rate is 0 |
| Voice.SilentSamples | voice_synthesizer.py:180-181 | the silent file has ⌊44100·duration⌋ samples for a non-negative duration |
| Voice.SilentAudio | voice_synthesizer.py:175-201 | the silent fallback always reports the requested duration; the flag is true exactly when the file is written |
| Voice.Synthesize | voice_synthesizer.py:57-90 | blank text gives 1.0 s of silence; a failed or empty query or a failed synthesis gives 3.0 s of silence; only full success returns true with the measured duration |
| Voice.NarrationNonNegative | voice_synthesizer.py:57-90 | every narration lasts a non-negative time |
| Voice.SynthesisFailureIsFailedSilence | voice_synthesizer.py:66-90 | a false flag comes only from a silent fallback that could not be written, with duration 1.0 or 3.0 |
| Video.CreatePageData | video_generator.py:396-407 | the record holds the given text, paths, duration and page number, the configured font size and colour, and the fade-in animation |
| Video.ImageSide | video_generator.py:299-309 | the image side is ⌊0.5·W⌋ on page 1 and ⌊0.9·W⌋ on any other page |
| Video.ImageTop | video_generator.py:299-312 | the image top is ⌊0.8·H − side/2⌋ on page 1 and ⌊0.2·H⌋ on any other page |
| Video.CaptionTop | video_generator.py:343-348 | the caption top is ⌊0.15·H⌋ on page 1 and ⌊0.75·H⌋ otherwise |
| Video.CaptionWidth | video_generator.py:338 | the caption box is ⌊0.9·W⌋ wide |
| Video.ImageWithinCanvas | video_generator.py:299-312 | on a portrait canvas (W ≤ 0.8·H) the image lies inside the canvas on every page |
| Video.CaptionOppositeImage | video_generator.py:299-348 | on canvases at least as tall as 1080x1920 proportions need, the caption's top edge is above the image's top edge on page 1 and below the image's bottom edge on other pages |
| Video.DefaultCanvasLayout | video_generator.py:299-348 | on 1080x1920 the image is 540 px at y 1266 on page 1 and 972 px at y 384 otherwise; captions sit at y 288 and 1440, 972 px wide |
| Video.FadeInLength | video_generator.py:284-288 | the fade-in is min(fade frames / fps, duration / 3), so it never exceeds a third of the page duration |
| Video.CaptionLayers | video_generator.py:320-377 | at most one caption, present iff the styled or the fallback caption renders, at the page-number-dependent top, lasting the page; the styled one in the record's font size (else the configured one), colour #000000, box width floor(0.9·W), fading in for the fade length under fade_in and not at all otherwise; the fallback in 32-point black without box width or fade |
| Video.CreatedPageCaption | video_generator.py:320-352 | a record made by create_page_data is captioned in the configured font size, in #000000, at 90% width and the page's caption height, fading in for min(fade frames / fps, duration / 3) |
| Video.StackLayers | video_generator.py:150-164 | backdrop, then an optional picture, then an optional caption is in paint order, and each kind is present exactly when supplied |
| Video.ComposePage | video_generator.py:141-177 | a clip exists iff composing succeeds; it starts at the given offset and lasts the page's duration (3.0 if missing); the white full-canvas backdrop comes first; the image is present iff its path is set, exists and loads, and then shows that path; a caption is present iff the text is non-empty and renders, and it is exactly the caption the caption builder makes for the page text; the layers are in backdrop → image → caption order |
| Video.PageLayers | video_generator.py:141-165 | the layers of a page clip: the backdrop first, the picture iff the image is shown, with the page's image path at the page-dependent size and height, the caption iff the text is non-empty and some caption renders, all lasting the page's duration, in paint order |
| Video.ComposedCaption | video_generator.py:320-348 | when the styled caption renders, a composed page ends in a caption with the page text, the page's font size (default otherwise), colour #000000, a box 90% of the width, at the page-dependent height |
| Video.PictureLayer | video_generator.py:299-312 | the picture shows the given path for the given duration, at the page-dependent side and height |
| Video.Cue | video_generator.py:94-97 | a page has a narration cue iff its audio path is set and the file exists; the cue plays that file from the page's start |
| Video.Offset | video_generator.py:84-99 | the first page starts at 0 and the cursor after the last page is the total duration |
| Video.BackgroundFit | video_generator.py:179-200 | a loaded background ends exactly canvas-wide and at least canvas-high, exactly canvas-high when the scaled image was at least as wide as the canvas |
| Video.FirstExistingIndex | video_generator.py:268-270 | the index returned is the first at or after the start whose path exists, or the length when none does |
| Video.FirstExisting | video_generator.py:268-272 | the result is the first existing candidate, or the fallback when none exists |
| Video.FontPath | video_generator.py:259-272 | the font is an existing candidate (the first one if it exists) or "Arial" |
| Video.SumDurationsAppend | video_generator.py:99 | appending a page extends the total by its duration, 3.0 if missing |
| Video.ClipsAbut | video_generator.py:141-177 | page k ends exactly where page k+1 starts |
| Video.OffsetsMonotone | video_generator.py:84-99 | with non-negative durations, later pages never start earlier |
| Video.NoOverlap | video_generator.py:84-99 | with non-negative durations no two page clips overlap |
| Video.AssembleTimeline | video_generator.py:84-99 | slot k holds page k's clip (or nothing) built at the sum of the durations of pages 0..k−1; cue k places page k's narration at that same offset when its file exists; a failed page still advances the cursor, which ends at the total duration |
| Video.GenerateVideo | video_generator.py:68-103 | without MoviePy the result is whether the placeholder is written; otherwise rendering fails when no page produced a clip and succeeds iff some page did and the write succeeds; the timeline ends at the total duration |
| Pipeline.StripNonBlank | main.py:56 | at most one page per piece |
| Pipeline.StripNonBlankEmptyIff | main.py:56-58 | no page is blank, and there are no pages exactly when every piece is blank |
| Pipeline.StripNonBlankSingle | main.py:56 | one piece gives its stripped text, or nothing when it is blank |
| Pipeline.StripNonBlankValid | main.py:56 | pieces without a blank line yield pages that are non-empty, trimmed and free of blank lines |
| Pipeline.ParseScript | main.py:46-70 | an unreadable file and a blank script are errors; for a non-blank script the pages are exactly the pieces of the stripped text split on blank lines, each stripped, with blank pieces dropped; there is at least one page and none is empty, has whitespace at either end or contains "\n\n" |
| Pipeline.ParseScriptStripped | main.py:53-56 | whitespace around the whole script does not change the result |
| Pipeline.StripNonBlankConcat | main.py:56 | pages keep the order of the pieces they come from |
| Pipeline.ParseJoinedPages | main.py:53-63 | joining valid pages with blank lines and parsing the result gives exactly those pages back |
| Pipeline.SplitJoined | main.py:56 | splitting valid pages joined with blank lines gives them back |
| Pipeline.StripNonBlankOfValid | main.py:56 | valid pages pass through strip-and-drop unchanged |
| Pipeline.JoinedTrimmed | main.py:53 | valid pages joined with blank lines are non-empty and have no whitespace at either end |
| Pipeline.FirstBreakAfterPage | main.py:56 | the first blank line after a valid page is the separator that follows it |
| Pipeline.PageDuration | main.py:171-181 | the base is the synthesised duration, or the estimate when synthesis reports failure; voice mode adds twice the padding (0.5 s by default), other modes add nothing; the speed scale must be non-zero only when synthesis fails and the estimate is used |
| Pipeline.PageDurationNonNegative | main.py:171-181 | when synthesis succeeds or the speed is positive, and the padding and the narration are non-negative, a page's duration is non-negative |
| Pipeline.EstimateUnusedWhileSilenceWritable | main.py:171-181 | while the silent fallback can be written, synthesis never reports failure and the base duration is 1.0, 3.0 or the measured length |
| Pipeline.AssetNamesDistinct | main.py:157-168 | distinct pages never share an image or audio name, and no image name is an audio name |
| Pipeline.ImageName | main.py:157 | the image name is `page_`, a run of digits, then `.png` |
| Pipeline.AudioName | main.py:168 | the audio name is `page_`, a run of digits, then `.wav` |
| Pipeline.ParseSecondsRoundTrip | main.py:198 | the `{int(total)}s.mp4` tail reads back as the whole seconds |
| Pipeline.OutputNameRoundTrip | main.py:198 | the output name records the page count and the truncated total duration, and both read back |
| Pipeline.OutputName | main.py:198 | the output name starts with `shorts_` and ends with `s.mp4` |
| Pipeline.PageDurations | main.py:153-181 | one duration per page |
| Pipeline.PageRecords | main.py:186-193 | one record per processed page |
| Pipeline.PageRecord | main.py:185-191 | the record for page i carries the page text, the computed duration, page number i, and the image and audio paths of page i inside the temporary directory |
| Pipeline.PageRecordsAt | main.py:153-193 | record i holds page i's text and duration and is numbered i+1 |
| Pipeline.PageRecordsStep | main.py:193 | processing one more page appends exactly that page's record after the records of the earlier pages |
| Pipeline.ProcessPages | main.py:150-193 | the loop stores the records of pages 1..n in order, with their durations, and the running total equals the sum of the stored durations; the speed scale must be non-zero only if some page falls back to the estimate |
| Pipeline.PlannedDurationsNonNegative | main.py:171-193 | with a positive speed and non-negative padding, every stored duration is non-negative, so the render timeline has no overlaps |
| Pipeline.RecordsSum | main.py:183 | the stored records last, together, the sum of the page durations |
| Pipeline.ProduceVideo | main.py:150-202 | the total is the sum of the page durations; the output name encodes the page count and ⌊total⌋; the render timeline ends exactly at the total; the render result follows the renderer's rule; the speed scale must be non-zero only if some page falls back to the estimate |
| ImageGen.DefaultPrompt | image_generator.py:215-231 | the prompt is the fallback string or one of the five keyword templates |
| ImageGen.PromptFromIsTemplate | image_generator.py:226-231 | scanning from any keyword yields the fallback or a template at or after it |
| ImageGen.DefaultPromptFirstMatch | image_generator.py:226-228 | the first keyword, in the order 社長, 成功, 知性, 学習, 仕事, that occurs in the text decides the prompt |
| ImageGen.PromptFromSkips | image_generator.py:226-228 | keywords that do not occur are skipped |
| ImageGen.DefaultPromptFallback | image_generator.py:226-231 | the fallback prompt is chosen exactly when no keyword occurs |
| ImageGen.PromptFromNoMatch | image_generator.py:230-231 | with no occurring keyword the scan ends at the fallback |
| ImageGen.FirstKeyword | image_generator.py:226-228 | if some keyword occurs, a first occurring keyword exists |
| ImageGen.EnhanceKeepsPrompt | image_generator.py:68-103 | the sent prompt is the user's prompt followed by the fixed suffix, so distinct prompts stay distinct |
| ImageGen.Enhance | image_generator.py:68 | the enhanced prompt begins with the user's prompt and is longer by exactly the fixed suffix |
| ImageGen.FalRequestFor | image_generator.py:75-81 | the fal request carries the enhanced prompt, size portrait_9_16, the safety checker on, and 35 steps and guidance 3.5 unless configured |
| ImageGen.ReplicateRequestFor | image_generator.py:110-119 | the Replicate request names flux-schnell and carries the enhanced prompt, 1080x1920, and 35 steps and guidance 3.5 unless configured |
| ImageGen.RequestsAgree | image_generator.py:75-119 | both providers get the same enhanced prompt, steps (35 by default) and guidance (3.5 by default); Replicate asks for 1080x1920, a 9:16 size |
| ImageGen.FalStep | image_generator.py:86-96 | fal.ai fetches images[0].url exactly on HTTP 200 with a non-empty `images` list; any other status gives False; a missing url raises |
| ImageGen.Decide | image_generator.py:134-149 | 'succeeded' with a non-empty output fetches output[0]; 'failed', other statuses and an empty or null output give False; a missing field raises |
| ImageGen.PollLoop | image_generator.py:129-149 | the poll stays undecided exactly while every reply is 'starting' or 'processing' |
| ImageGen.PollLoopFirstDecisive | image_generator.py:129-149 | the first reply that is not pending decides the poll |
| ImageGen.PollLoopSkipsPending | image_generator.py:144-146 | pending replies before the others change nothing |
| ImageGen.PollFetchMeansSucceeded | image_generator.py:134-137 | an image is fetched only from a 'succeeded' reply, and its URL is that reply's first output |
| ImageGen.ReplicateStep | image_generator.py:122-152 | a non-201 reply gives False; a 201 reply without a poll URL raises; a 201 reply with one starts the poll |
| ImageGen.GenerateImage | image_generator.py:37-61 | an empty key or an unknown provider draws the placeholder and contacts no one; for fal.ai and for Replicate, a provider's image URL is downloaded, a provider that answers without an image gives False, and an exception draws the placeholder; the call returns True only if a download or the placeholder succeeded |
| ImageGen.NoKeyIgnoresProviders | image_generator.py:46-48 | without an API key the result depends on nothing the providers do |
| ImageGen.FalReturnsTrue | image_generator.py:46-171 | with fal.ai the call returns True exactly when HTTP 200 brings a URL that downloads, or the request raises and the placeholder is written |
| ImageGen.ReplicateReturnsTrue | image_generator.py:46-171 | with Replicate, once the poll has decided, the call returns True exactly when a succeeded prediction's image downloads, or a request raises and the placeholder is written |
| Upload.ResumableUpload | youtube_uploader.py:169-204 | at most 3 − retry backoffs, the i-th lasting 2^(retry+i+1) s; an id is returned only from a final response that carries it; the loop is unfinished only if every outcome was progress or a transient error |
| Upload.BackoffSchedule | youtube_uploader.py:185-195 | from a fresh start the waits are a prefix of 2, 4, 8 s |
| Upload.ProgressSkipped | youtube_uploader.py:175-178 | chunks that only report progress change nothing |
| Upload.FatalErrorAbandons | youtube_uploader.py:176-202 | a final response without an id, a non-transient HTTP error or any other exception returns None at once, with no retry |
| Upload.TransientCount | youtube_uploader.py:185 | there are no more transient errors than outcomes |
| Upload.RetriesExhausted | youtube_uploader.py:185-191 | once more transient errors than retries remain arrive with only progress in between, the loop returns None after exactly one backoff per remaining retry, whatever follows |
| Upload.CompletesWithinRetries | youtube_uploader.py:175-204 | a final response with an id, after only recoverable outcomes and at most the remaining retries' transient errors, is the result, with one backoff per transient error |
| Upload.UploadRequestShape | youtube_uploader.py:120-145 | part is 'snippet,status'; the body carries the title, the description, tags shorts/ai/generated, category '22' and privacy 'private' by default, and is not made for kids |
| Upload.UploadBodyFor | youtube_uploader.py:120-131 | the body carries the given title and description, is not made for kids, and has category '22' and privacy 'private' unless configured otherwise |
| Upload.UploadVideo | youtube_uploader.py:106-167 | without the library, authentication or the file, or when building the request fails, the result is None; otherwise it is the id the resumable upload ends with, or None when that loop gave up; a returned id came from a final response |
| Upload.UploadReturnsId | youtube_uploader.py:151-157 | a ready upload whose final response carries an id, reached through progress and at most three transient errors, returns that id |
| Upload.UploadFailsOnFatalError | youtube_uploader.py:151-202 | an upload whose first chunk fails fatally returns None |
| Upload.GetChannelInfo | youtube_uploader.py:206-233 | None when not authenticated, on an HTTP error or with no items; otherwise the first item's id and title exactly when its id, title and statistics are present (a KeyError otherwise), each count reported as given or 0 when absent |

## Left out

- MoviePy and PIL internals are not modelled. This covers clip construction, compositing, `write_videofile`, closing clips and the placeholder text file. A clip is a record of its start, duration and layers, and what the libraries do is an input (`RenderEnv`, `writeSucceeds`, `placeholderWritable`).
- The legacy `_create_text_clips` and `_apply_typewriter_effect` are left out: nothing in the pipeline calls them.
- The exception branch of `_apply_fade_in_effect` is left out. It would drop the fade and keep the duration, so the caption's fade would be 0 rather than the computed length.
- The placeholder image drawing and the image download are left out. They are PIL and HTTP work; their success is a boolean input.
- All HTTP traffic is left out: VOICEVOX, fal.ai, Replicate, DeepL and YouTube, plus `_check_connection` and `get_available_speakers`. Each reply is an input value.
- The OAuth flow (`authenticate`) and `create_credentials_template` are left out. Authentication is a boolean input.
- `translate_text` is left out. It is a DeepL HTTP call, and its result only feeds the image prompt, which the model takes as given.
- `time.sleep` is left out. The upload returns its backoff delays instead of sleeping, and the Replicate poll has no delay.
- The unbounded poll and upload loops see finite reply sequences. Running out of replies is reported as `Undecided`.
- CLI parsing, YAML loading, logging, directory creation and temporary-file deletion are left out as I/O glue.
- `main` stops after `generate_video`. The optional upload step calls `Upload.UploadVideo`, whose title and description strings are left out, and the final `exists` check is not modelled.
- IEEE float rounding is left out. Durations and geometry use exact reals.
- WAV encoding beyond the sample count is left out.
- The manual script test/image_gen_test.py is left out. It calls the live API and has no assertions.
- Voice.EstimateDuration: requires a non-zero speed scale. Python raises `ZeroDivisionError` there, which `main` does not catch inside the page loop.
- Video.FadeInLength: requires a non-zero fps. The constructor divides by fps, so a zero value never reaches this code.
- Video.BackgroundFit: requires positive image and canvas sizes. MoviePy's resize is undefined otherwise.
- ImageGen.GenerateImage: the exception branch covers the exceptions the model names (a missing reply field, a raised request). An exception inside `_download_image` is caught there and counts as a failed download.
- Upload.GetChannelInfo: a missing `id`, `snippet` or `statistics` key raises an uncaught `KeyError`. It is modelled as `Propagates` with no further detail.

=== FILE: common.dfy ===
/** Small shared vocabulary: optional values, outcomes of loops driven by a
    finite sequence of observations, and the arithmetic of Python's int(). */
module Common {

  /** A value that may be absent: a missing dictionary key, a `None` return. */
  datatype Option<+T> = None | Some(value: T) {

    /** The value, or `default` when absent (Python's `dict.get(key, default)`). */
    function GetOr(default: T): T {
      match this
      case Some(v) => v
      case None => default
    }
  }

  /** The result of a loop that waits on an external service. The model feeds
      it a finite sequence of observed replies; when they run out before the
      loop returns, the outcome is `Undecided`. */
  datatype Observed<+T> = Settled(value: T) | Undecided

  /** Python's `int(x)` for a float `x`: truncation toward zero. */
  function Trunc(x: real): (r: int)
    ensures 0.0 <= x ==> 0 <= r && r as real <= x < r as real + 1.0
    ensures x < 0.0 ==> r <= 0 && r as real - 1.0 < x <= r as real
  {
    if x >= 0.0 then x.Floor else -((-x).Floor)
  }

  function Min(a: real, b: real): (r: real)
    ensures r <= a && r <= b && (r == a || r == b)
  {
    if a <= b then a else b
  }

  function Max(a: real, b: real): (r: real)
    ensures a <= r && b <= r && (r == a || r == b)
  {
    if a >= b then a else b
  }
}

=== FILE: imagegen.dfy ===
/** The decisions of `image_generator.py`: the keyword-based default prompt,
    the prompt suffix both providers send, the provider dispatch with its
    placeholder fallback, the fal.ai reply check and the Replicate status
    poll. Every network reply, the image download and the placeholder
    drawing enter as parameters (`ImageEnv`); the poll sees a finite
    sequence of replies. */
module ImageGen {
  import opened Common
  import opened PyStr

  // ---------------------------------------------------------------------
  // Default prompt (`generate_default_image_prompt`)

  /** The keyword table, in the order the source tries it: a keyword and
      the prompt used when it occurs in the page text. */
  const Keywords: seq<(string, string)> := [
    ("社長", "professional businessman in modern office"),
    ("成功", "successful person, luxury lifestyle"),
    ("知性", "intelligent person reading, library setting"),
    ("学習", "person studying, books, peaceful environment"),
    ("仕事", "person working at desk, professional setting")
  ]

  /** The prompt used when no keyword occurs. */
  const FallbackPrompt: string := "modern professional background, clean minimal design"

  /** The template of the first keyword from index `i` on that occurs in `text`. */
  function PromptFrom(text: string, i: nat): (r: string)
    requires i <= |Keywords|
    decreases |Keywords| - i
  {
    if i == |Keywords| then FallbackPrompt
    else if Contains(text, Keywords[i].0) then Keywords[i].1
    else PromptFrom(text, i + 1)
  }

  /** `generate_default_image_prompt`: the template of the first keyword,
      in table order, that occurs in `text`, else the fallback prompt. */
  function DefaultPrompt(text: string): (r: string)
    ensures r == FallbackPrompt || exists k :: 0 <= k < |Keywords| && r == Keywords[k].1
  {
    PromptFromIsTemplate(text, 0);
    PromptFrom(text, 0)
  }

  lemma {:induction false} PromptFromIsTemplate(text: string, i: nat)
    requires i <= |Keywords|
    ensures PromptFrom(text, i) == FallbackPrompt || exists k :: i <= k < |Keywords| && PromptFrom(text, i) == Keywords[k].1
    decreases |Keywords| - i
  {
    if i < |Keywords| && !Contains(text, Keywords[i].0) {
      PromptFromIsTemplate(text, i + 1);
    }
  }

  /** The first keyword that occurs decides the prompt. */
  lemma {:induction false} DefaultPromptFirstMatch(text: string, k: nat)
    requires k < |Keywords| && Contains(text, Keywords[k].0)
    requires forall j :: 0 <= j < k ==> !Contains(text, Keywords[j].0)
    ensures DefaultPrompt(text) == Keywords[k].1
  {
    PromptFromSkips(text, 0, k);
  }

  lemma {:induction false} PromptFromSkips(text: string, i: nat, k: nat)
    requires i <= k < |Keywords| && Contains(text, Keywords[k].0)
    requires forall j :: i <= j < k ==> !Contains(text, Keywords[j].0)
    ensures PromptFrom(text, i) == Keywords[k].1
    decreases k - i
  {
    if i < k {
      PromptFromSkips(text, i + 1, k);
    }
  }

  /** The fallback prompt is chosen exactly when no keyword occurs. */
  lemma {:induction false} DefaultPromptFallback(text: string)
    ensures DefaultPrompt(text) == FallbackPrompt <==> forall k :: 0 <= k < |Keywords| ==> !Contains(text, Keywords[k].0)
  {
    if forall k :: 0 <= k < |Keywords| ==> !Contains(text, Keywords[k].0) {
      PromptFromNoMatch(text, 0);
    } else {
      var k :| 0 <= k < |Keywords| && Contains(text, Keywords[k].0);
      var first := FirstKeyword(text, k);
      DefaultPromptFirstMatch(text, first);
      assert Keywords[first].1 != FallbackPrompt;
    }
  }

  lemma {:induction false} PromptFromNoMatch(text: string, i: nat)
    requires i <= |Keywords|
    requires forall k :: i <= k < |Keywords| ==> !Contains(text, Keywords[k].0)
    ensures PromptFrom(text, i) == FallbackPrompt
    decreases |Keywords| - i
  {
    if i < |Keywords| {
      PromptFromNoMatch(text, i + 1);
    }
  }

  /** The least index at or below `k` whose keyword occurs, given that keyword `k` occurs. */
  lemma {:induction false} FirstKeyword(text: string, k: nat) returns (first: nat)
    requires k < |Keywords| && Contains(text, Keywords[k].0)
    ensures first <= k && Contains(text, Keywords[first].0)
    ensures forall j :: 0 <= j < first ==> !Contains(text, Keywords[j].0)
  {
    first := k;
    var j := 0;
    while j < k
      invariant 0 <= j <= k
      invariant forall i :: 0 <= i < j ==> !Contains(text, Keywords[i].0)
    {
      if Contains(text, Keywords[j].0) {
        first := j;
        return;
      }
      j := j + 1;
    }
  }

  // ---------------------------------------------------------------------
  // Requests

  /** The suffix both providers append to the prompt. */
  const PromptSuffix: string := ", vertical orientation, 9:16 aspect ratio, high quality, professional"

  /** The prompt a provider is sent for the user's `prompt`. */
  function Enhance(prompt: string): (r: string)
    ensures |r| == |prompt| + |PromptSuffix| && r[..|prompt|] == prompt
  {
    prompt + PromptSuffix
  }

  /** The enhanced prompt starts with the user's prompt and ends with the
      suffix, so different prompts are never sent as the same one. */
  lemma EnhanceKeepsPrompt(a: string, b: string)
    ensures Enhance(a)[..|a|] == a && Enhance(a)[|a|..] == PromptSuffix
    ensures Enhance(a) == Enhance(b) ==> a == b
  {
    assert Enhance(a)[..|a|] == a;
    if Enhance(a) == Enhance(b) {
      assert |a| == |b|;
      assert Enhance(b)[..|b|] == b;
    }
  }

  /** The `apis.flux` settings; absent keys are `None`. */
  datatype FluxConfig = FluxConfig(provider: Option<string>, apiKey: Option<string>,
                                   steps: Option<int>, guidanceScale: Option<real>)

  function Provider(cfg: FluxConfig): string {
    cfg.provider.GetOr("fal.ai")
  }

  /** `if not self.api_key`: a missing, null or empty key counts as absent. */
  predicate KeyConfigured(cfg: FluxConfig) {
    cfg.apiKey.GetOr("") != ""
  }

  function Steps(cfg: FluxConfig): int {
    cfg.steps.GetOr(35)
  }

  function GuidanceScale(cfg: FluxConfig): real {
    cfg.guidanceScale.GetOr(3.5)
  }

  /** The body posted to fal.ai. */
  datatype FalRequest = FalRequest(prompt: string, imageSize: string, steps: int,
                                   guidanceScale: real, safetyChecker: bool)

  function FalRequestFor(cfg: FluxConfig, prompt: string): (r: FalRequest)
    ensures r.prompt == Enhance(prompt) && r.imageSize == "portrait_9_16" && r.safetyChecker
    ensures cfg.steps.None? ==> r.steps == 35
    ensures cfg.guidanceScale.None? ==> r.guidanceScale == 3.5
  {
    FalRequest(Enhance(prompt), "portrait_9_16", Steps(cfg), GuidanceScale(cfg), true)
  }

  /** The body posted to Replicate. */
  datatype ReplicateRequest = ReplicateRequest(version: string, prompt: string, width: int, height: int,
                                               steps: int, guidanceScale: real)

  function ReplicateRequestFor(cfg: FluxConfig, prompt: string): (r: ReplicateRequest)
    ensures r.prompt == Enhance(prompt) && r.width == 1080 && r.height == 1920
    ensures r.version == "black-forest-labs/flux-schnell"
    ensures cfg.steps.None? ==> r.steps == 35
    ensures cfg.guidanceScale.None? ==> r.guidanceScale == 3.5
  {
    ReplicateRequest("black-forest-labs/flux-schnell", Enhance(prompt), 1080, 1920, Steps(cfg), GuidanceScale(cfg))
  }

  /** Both providers are sent the same enhanced prompt and the same sampling
      settings; Replicate asks for a 1080x1920 image and fal.ai for the
      portrait 9:16 size with the safety checker on. */
  lemma RequestsAgree(cfg: FluxConfig, prompt: string)
    ensures FalRequestFor(cfg, prompt).prompt == ReplicateRequestFor(cfg, prompt).prompt == prompt + PromptSuffix
    ensures FalRequestFor(cfg, prompt).steps == ReplicateRequestFor(cfg, prompt).steps
    ensures FalRequestFor(cfg, prompt).guidanceScale == ReplicateRequestFor(cfg, prompt).guidanceScale
    ensures cfg.steps.None? ==> FalRequestFor(cfg, prompt).steps == 35
    ensures cfg.guidanceScale.None? ==> FalRequestFor(cfg, prompt).guidanceScale == 3.5
    ensures ReplicateRequestFor(cfg, prompt).width * 16 == ReplicateRequestFor(cfg, prompt).height * 9
  {
  }

  // ---------------------------------------------------------------------
  // Provider replies

  /** Where a provider's reply leads: fetch an image URL, give up (the
      generator returns False), or raise an exception (a missing key, a
      failed request, a body that is not JSON). */
  datatype Step = Fetch(url: string) | Declined | Raised

  /** The fal.ai reply: an exception, or a status code and the `images`
      field (`None` when absent or null), each image with its `url` when
      present. */
  datatype FalReply = FalRaised | FalAnswer(status: int, images: Option<seq<Option<string>>>)

  /** `_generate_with_fal` after the request: HTTP 200 with a non-empty
      `images` list fetches the first image's URL. */
  function FalStep(reply: FalReply): (r: Step)
    ensures r.Fetch? <==>
      (reply.FalAnswer? && reply.status == 200 && reply.images.Some?
       && |reply.images.value| > 0 && reply.images.value[0].Some?)
    ensures r.Fetch? ==> r.url == reply.images.value[0].value
    ensures reply.FalAnswer? && reply.status != 200 ==> r == Declined
    ensures r.Raised? <==>
      (reply.FalRaised?
       || (reply.status == 200 && reply.images.Some? && |reply.images.value| > 0 && reply.images.value[0].None?))
  {
    match reply
    case FalRaised => Raised
    case FalAnswer(status, images) =>
      if status != 200 then Declined
      else if images.None? || |images.value| == 0 then Declined
      else match images.value[0]
        case None => Raised
        case Some(url) => Fetch(url)
  }

  /** The `output` field of a Replicate prediction: absent, null, or a list of URLs. */
  datatype Output = Absent | Null | Urls(urls: seq<string>)

  /** One reply to a status poll: an exception, or the `status` field
      (`None` when absent) and the `output` field. */
  datatype Poll = PollRaised | PollReply(status: Option<string>, output: Output)

  /** The statuses on which the loop polls again. */
  predicate Pending(p: Poll) {
    p.PollReply? && p.status.Some? && p.status.value in {"starting", "processing"}
  }

  /** What a poll that is not pending decides. */
  function Decide(p: Poll): (r: Step)
    requires !Pending(p)
    ensures r.Fetch? <==> p.PollReply? && p.status == Some("succeeded") && p.output.Urls? && |p.output.urls| > 0
    ensures r.Fetch? ==> r.url == p.output.urls[0]
    ensures p.PollReply? && p.status == Some("failed") ==> r == Declined
    ensures r.Raised? <==> p.PollRaised? || p.status.None? || (p.status == Some("succeeded") && p.output.Absent?)
  {
    match p
    case PollRaised => Raised
    case PollReply(status, output) =>
      if status.None? then Raised
      else if status.value == "succeeded" then
        match output
        case Absent => Raised
        case Null => Declined
        case Urls(urls) => if |urls| > 0 then Fetch(urls[0]) else Declined
      else Declined
  }

  /** The `while True` poll of `_generate_with_replicate` over the replies
      it sees: pending replies are skipped and the first other reply decides.
      When the replies run out while still pending, the outcome is `Undecided`. */
  function PollLoop(polls: seq<Poll>): (r: Observed<Step>)
    ensures r.Undecided? <==> forall k :: 0 <= k < |polls| ==> Pending(polls[k])
    decreases |polls|
  {
    if |polls| == 0 then Undecided
    else if Pending(polls[0]) then
      var rest := PollLoop(polls[1..]);
      assert forall k :: 1 <= k < |polls| ==> polls[k] == polls[1..][k - 1];
      rest
    else Settled(Decide(polls[0]))
  }

  /** The first reply that is not pending decides the poll. */
  lemma {:induction false} PollLoopFirstDecisive(polls: seq<Poll>, k: nat)
    requires k < |polls| && !Pending(polls[k])
    requires forall j :: 0 <= j < k ==> Pending(polls[j])
    ensures PollLoop(polls) == Settled(Decide(polls[k]))
  {
    if k > 0 {
      assert forall j :: 0 <= j < k - 1 ==> polls[1..][j] == polls[j + 1];
      PollLoopFirstDecisive(polls[1..], k - 1);
    }
  }

  /** Pending replies before the others change nothing. */
  lemma {:induction false} PollLoopSkipsPending(pending: seq<Poll>, rest: seq<Poll>)
    requires forall j :: 0 <= j < |pending| ==> Pending(pending[j])
    ensures PollLoop(pending + rest) == PollLoop(rest)
  {
    if |pending| > 0 {
      assert (pending + rest)[0] == pending[0];
      assert (pending + rest)[1..] == pending[1..] + rest;
      assert forall j :: 0 <= j < |pending| - 1 ==> pending[1..][j] == pending[j + 1];
      PollLoopSkipsPending(pending[1..], rest);
    } else {
      assert pending + rest == rest;
    }
  }

  /** Poll `k` reported success and its output starts with `url`. */
  predicate SucceededWith(polls: seq<Poll>, k: int, url: string) {
    && 0 <= k < |polls|
    && polls[k].PollReply? && polls[k].status == Some("succeeded")
    && polls[k].output.Urls? && |polls[k].output.urls| > 0
    && polls[k].output.urls[0] == url
  }

  /** An image is fetched only from a poll that reported success with a
      non-empty output, and the URL is the first one of that output. */
  lemma {:induction false} PollFetchMeansSucceeded(polls: seq<Poll>)
    requires PollLoop(polls).Settled? && PollLoop(polls).value.Fetch?
    ensures exists k :: SucceededWith(polls, k, PollLoop(polls).value.url)
  {
    if Pending(polls[0]) {
      PollFetchMeansSucceeded(polls[1..]);
      var k :| SucceededWith(polls[1..], k, PollLoop(polls[1..]).value.url);
      assert SucceededWith(polls, k + 1, PollLoop(polls).value.url);
    } else {
      assert SucceededWith(polls, 0, PollLoop(polls).value.url);
    }
  }

  /** The reply to the Replicate prediction request: an exception, or a
      status code and the `urls.get` field (`None` when absent). */
  datatype ReplicateReply = ReplicateRaised | ReplicateAnswer(status: int, getUrl: Option<string>)

  /** `_generate_with_replicate` after the request: HTTP 201 with a poll URL
      starts the poll; any other status gives up. */
  function ReplicateStep(reply: ReplicateReply, polls: seq<Poll>): (r: Observed<Step>)
    ensures reply.ReplicateRaised? ==> r == Settled(Raised)
    ensures reply.ReplicateAnswer? && reply.status != 201 ==> r == Settled(Declined)
    ensures reply.ReplicateAnswer? && reply.status == 201 && reply.getUrl.None? ==> r == Settled(Raised)
    ensures reply.ReplicateAnswer? && reply.status == 201 && reply.getUrl.Some? ==> r == PollLoop(polls)
  {
    match reply
    case ReplicateRaised => Settled(Raised)
    case ReplicateAnswer(status, getUrl) =>
      if status != 201 then Settled(Declined)
      else if getUrl.None? then Settled(Raised)
      else PollLoop(polls)
  }

  // ---------------------------------------------------------------------
  // Dispatch (`generate_image`)

  /** What the outside world does on one call: the fal.ai reply, the
      Replicate reply and poll replies, whether the image download and
      save succeed, and whether the placeholder image can be written. */
  datatype ImageEnv = ImageEnv(fal: FalReply, replicate: ReplicateReply, polls: seq<Poll>,
                               downloads: bool, placeholderOk: bool)

  /** How a call ends: an image URL was downloaded (with the download's
      success), the provider answered without an image, or the placeholder
      was drawn (with its success). */
  datatype ImageOutcome = Downloaded(ok: bool) | Refused | Placeholder(ok: bool)

  /** The boolean `generate_image` returns. */
  function Returned(o: ImageOutcome): bool {
    match o
    case Downloaded(ok) => ok
    case Refused => false
    case Placeholder(ok) => ok
  }

  /** How a provider's step ends the call: an exception falls back to the placeholder. */
  function Finish(s: Step, env: ImageEnv): ImageOutcome {
    match s
    case Fetch(_) => Downloaded(env.downloads)
    case Declined => Refused
    case Raised => Placeholder(env.placeholderOk)
  }

  /** `generate_image`: without an API key or with an unknown provider it
      draws the placeholder and contacts no one; otherwise it asks the
      configured provider, and any exception also ends in the placeholder. */
  function GenerateImage(cfg: FluxConfig, env: ImageEnv): (r: Observed<ImageOutcome>)
    ensures !KeyConfigured(cfg) ==> r == Settled(Placeholder(env.placeholderOk))
    ensures Provider(cfg) !in {"fal.ai", "replicate"} ==> r == Settled(Placeholder(env.placeholderOk))
    ensures r.Undecided? <==>
      KeyConfigured(cfg) && Provider(cfg) == "replicate" && ReplicateStep(env.replicate, env.polls).Undecided?
    ensures r.Settled? && r.value.Downloaded? ==>
      KeyConfigured(cfg) && ((Provider(cfg) == "fal.ai" && FalStep(env.fal).Fetch?)
                              || (Provider(cfg) == "replicate" && ReplicateStep(env.replicate, env.polls).Settled?
                                  && ReplicateStep(env.replicate, env.polls).value.Fetch?))
    ensures r.Settled? && Returned(r.value) ==> env.downloads || env.placeholderOk
    ensures KeyConfigured(cfg) && Provider(cfg) == "replicate" ==>
      && (ReplicateStep(env.replicate, env.polls) == Settled(Declined) ==> r == Settled(Refused))
      && (ReplicateStep(env.replicate, env.polls) == Settled(Raised) ==> r == Settled(Placeholder(env.placeholderOk)))
      && (ReplicateStep(env.replicate, env.polls).Settled? && ReplicateStep(env.replicate, env.polls).value.Fetch? ==>
            r == Settled(Downloaded(env.downloads)))
    ensures KeyConfigured(cfg) && Provider(cfg) == "fal.ai" ==>
      && (FalStep(env.fal).Declined? ==> r == Settled(Refused))
      && (FalStep(env.fal).Raised? ==> r == Settled(Placeholder(env.placeholderOk)))
      && (FalStep(env.fal).Fetch? ==> r == Settled(Downloaded(env.downloads)))
  {
    if !KeyConfigured(cfg) then Settled(Placeholder(env.placeholderOk))
    else if Provider(cfg) == "fal.ai" then Settled(Finish(FalStep(env.fal), env))
    else if Provider(cfg) == "replicate" then
      match ReplicateStep(env.replicate, env.polls)
      case Undecided => Undecided
      case Settled(s) => Settled(Finish(s, env))
    else Settled(Placeholder(env.placeholderOk))
  }

  /** Without an API key the result depends on nothing the providers do. */
  lemma NoKeyIgnoresProviders(cfg: FluxConfig, e1: ImageEnv, e2: ImageEnv)
    requires !KeyConfigured(cfg) && e1.placeholderOk == e2.placeholderOk
    ensures GenerateImage(cfg, e1) == GenerateImage(cfg, e2)
  {
  }

  /** With fal.ai, the call returns True exactly when HTTP 200 brings an
      image URL that downloads, or when the request raises and the
      placeholder is written. */
  lemma FalReturnsTrue(cfg: FluxConfig, env: ImageEnv)
    requires KeyConfigured(cfg) && Provider(cfg) == "fal.ai"
    ensures GenerateImage(cfg, env).Settled?
    ensures Returned(GenerateImage(cfg, env).value) <==>
      (FalStep(env.fal).Fetch? && env.downloads) || (FalStep(env.fal).Raised? && env.placeholderOk)
  {
  }

  /** With Replicate, once the poll has decided, the call returns True
      exactly when a 'succeeded' prediction's image downloads, or when a
      request raises and the placeholder is written; a refused request or a
      failed prediction returns False. */
  lemma ReplicateReturnsTrue(cfg: FluxConfig, env: ImageEnv)
    requires KeyConfigured(cfg) && Provider(cfg) == "replicate"
    requires ReplicateStep(env.replicate, env.polls).Settled?
    ensures GenerateImage(cfg, env).Settled?
    ensures Returned(GenerateImage(cfg, env).value) <==>
      (ReplicateStep(env.replicate, env.polls).value.Fetch? && env.downloads)
      || (ReplicateStep(env.replicate, env.polls).value.Raised? && env.placeholderOk)
  {
  }
}

=== FILE: pipeline.dfy ===
/** The orchestration arithmetic of `main.py`: splitting the script into
    pages, the duration of each page, the running total that must equal the
    end of the render timeline, page numbering, asset names and the name of
    the output file. Translation, image generation and logging are not
    modelled; speech synthesis enters through `Voice.Synthesize` with its
    server replies as parameters. */
module Pipeline {
  import opened Common
  import opened PyStr
  import Voice
  import Video

  // ---------------------------------------------------------------------
  // Script parsing (`parse_simple_script`)

  /** The separator between pages: a blank line. */
  const PageBreak: string := "\n\n"

  /** Outcome of reading the script: its pages, or one of the two errors on
      which the program exits. */
  datatype ScriptResult = Pages(pages: seq<string>) | Unreadable | NoPages

  /** A page as the parser produces it: non-empty, without whitespace at
      either end (so stripping leaves it unchanged) and without a blank line. */
  predicate ValidPage(p: string) {
    p != "" && Trimmed(p) && !Contains(p, PageBreak)
  }

  /** `[p.strip() for p in pieces if p.strip()]`. */
  function StripNonBlank(pieces: seq<string>): (r: seq<string>)
    ensures |r| <= |pieces|
  {
    if |pieces| == 0 then []
    else
      var rest := StripNonBlank(pieces[1..]);
      if Strip(pieces[0]) != "" then [Strip(pieces[0])] + rest else rest
  }

  /** No page is blank, and there are no pages exactly when every piece is blank. */
  lemma {:induction false} StripNonBlankEmptyIff(pieces: seq<string>)
    ensures forall k :: 0 <= k < |StripNonBlank(pieces)| ==> !IsBlank(StripNonBlank(pieces)[k])
    ensures StripNonBlank(pieces) == [] <==> forall k :: 0 <= k < |pieces| ==> IsBlank(pieces[k])
  {
    if |pieces| > 0 {
      StripNonBlankEmptyIff(pieces[1..]);
      assert forall k :: 1 <= k < |pieces| ==> pieces[k] == pieces[1..][k - 1];
      if !IsBlank(pieces[0]) {
        StripIdempotent(pieces[0]);
      }
    }
  }

  /** Pieces without a blank line give valid pages. */
  lemma {:induction false} StripNonBlankValid(pieces: seq<string>)
    requires forall k :: 0 <= k < |pieces| ==> !Contains(pieces[k], PageBreak)
    ensures forall k :: 0 <= k < |StripNonBlank(pieces)| ==> ValidPage(StripNonBlank(pieces)[k])
  {
    if |pieces| > 0 {
      StripNonBlankValid(pieces[1..]);
      var p := pieces[0];
      StripIsInfix(p);
      NotContainsInfix(p, PageBreak, LeadingSpaces(p), LeadingSpaces(p) + |Strip(p)|);
    }
  }

  /** `parse_simple_script`, given the file's content (`None` when it cannot
      be read): the stripped content split on blank lines, each piece
      stripped, blank pieces dropped. */
  function ParseScript(content: Option<string>): (r: ScriptResult)
    ensures content.None? ==> r == Unreadable
    ensures content.Some? && IsBlank(content.value) ==> r == NoPages
    ensures content.Some? && !IsBlank(content.value) ==> r.Pages?
    ensures content.Some? && !IsBlank(content.value) ==>
      r == Pages(StripNonBlank(Split(Strip(content.value), PageBreak)))
    ensures r.Pages? ==> |r.pages| >= 1
    ensures r.Pages? ==> forall k :: 0 <= k < |r.pages| ==> ValidPage(r.pages[k])
  {
    match content
    case None => Unreadable
    case Some(text) =>
      var pieces := Split(Strip(text), PageBreak);
      var pages := StripNonBlank(pieces);
      StripNonBlankValid(pieces);
      StripNonBlankEmptyIff(pieces);
      if Strip(text) == "" then
        assert FindFirst("", PageBreak).None?;
        assert pieces == [""];
        NoPages
      else if |pages| == 0 then NoPages
      else Pages(pages)
  }

  /** One piece gives its stripped self, or nothing when it is blank; with
      `StripNonBlankConcat` this fixes the pages of any list of pieces. */
  lemma StripNonBlankSingle(p: string)
    ensures StripNonBlank([p]) == if IsBlank(p) then [] else [Strip(p)]
  {
    assert [p][1..] == [];
  }

  /** Whitespace around the whole script changes nothing. */
  lemma ParseScriptStripped(text: string)
    ensures ParseScript(Some(text)) == ParseScript(Some(Strip(text)))
  {
    StripIdempotent(text);
  }

  /** Pages keep the order of the pieces they come from: the pages of a
      concatenation are the pages of its parts, one after the other. */
  lemma {:induction false} StripNonBlankConcat(a: seq<string>, b: seq<string>)
    ensures StripNonBlank(a + b) == StripNonBlank(a) + StripNonBlank(b)
  {
    if |a| > 0 {
      assert (a + b)[1..] == a[1..] + b;
      StripNonBlankConcat(a[1..], b);
    } else {
      assert a + b == b;
    }
  }

  /** Joining valid pages with blank lines and parsing the result gives the
      pages back. */
  lemma {:induction false} ParseJoinedPages(pages: seq<string>)
    requires |pages| >= 1
    requires forall k :: 0 <= k < |pages| ==> ValidPage(pages[k])
    ensures ParseScript(Some(Join(pages, PageBreak))) == Pages(pages)
  {
    var text := Join(pages, PageBreak);
    JoinedTrimmed(pages);
    StripFixedIffTrimmed(text);
    SplitJoined(pages);
    StripNonBlankOfValid(pages);
    assert Split(Strip(text), PageBreak) == pages;
  }

  /** Joined valid pages are non-empty and trimmed. */
  lemma {:induction false} JoinedTrimmed(pages: seq<string>)
    requires |pages| >= 1
    requires forall k :: 0 <= k < |pages| ==> ValidPage(pages[k])
    ensures Join(pages, PageBreak) != "" && Trimmed(Join(pages, PageBreak))
  {
    var p := pages[0];
    assert ValidPage(p);
    if |pages| > 1 {
      JoinedTrimmed(pages[1..]);
      assert forall k :: 1 <= k < |pages| ==> pages[k] == pages[1..][k - 1];
      var rest := Join(pages[1..], PageBreak);
      var s := p + PageBreak + rest;
      assert Join(pages, PageBreak) == s;
      assert s[0] == p[0];
      assert s[|s| - 1] == rest[|rest| - 1];
    }
  }

  /** The first blank line of `p + PageBreak + rest` is the one after `p`,
      when `p` is a valid page. */
  lemma FirstBreakAfterPage(p: string, rest: string)
    requires ValidPage(p)
    ensures FindFirst(p + PageBreak + rest, PageBreak) == Some(|p|)
  {
    var s := p + PageBreak + rest;
    assert OccursAt(s, PageBreak, |p|) by {
      assert s[|p|..|p| + 2] == PageBreak;
    }
    forall j | 0 <= j < |p| ensures !OccursAt(s, PageBreak, j) {
      if j + 2 <= |p| {
        assert s[j..j + 2] == p[j..j + 2];
        assert !OccursAt(p, PageBreak, j);
      } else {
        assert s[j] == p[|p| - 1];
        assert IsSpace('\n') && !IsSpace(p[|p| - 1]);
        assert s[j..j + 2][0] == s[j] != '\n';
      }
    }
  }

  /** Splitting joined valid pages on blank lines gives the pages back. */
  lemma {:induction false} SplitJoined(pages: seq<string>)
    requires |pages| >= 1
    requires forall k :: 0 <= k < |pages| ==> ValidPage(pages[k])
    ensures Split(Join(pages, PageBreak), PageBreak) == pages
  {
    var p := pages[0];
    if |pages| == 1 {
      assert Join(pages, PageBreak) == p;
      assert ValidPage(p);
    } else {
      var rest := Join(pages[1..], PageBreak);
      var s := p + PageBreak + rest;
      assert Join(pages, PageBreak) == s;
      assert forall k :: 1 <= k < |pages| ==> pages[k] == pages[1..][k - 1];
      FirstBreakAfterPage(p, rest);
      assert s[|p| + 2..] == rest;
      SplitStep(s, PageBreak, |p|);
      assert s[..|p|] == p;
      SplitJoined(pages[1..]);
      assert [p] + pages[1..] == pages;
    }
  }

  /** Valid pages pass through the strip-and-drop step unchanged. */
  lemma {:induction false} StripNonBlankOfValid(pages: seq<string>)
    requires forall k :: 0 <= k < |pages| ==> ValidPage(pages[k])
    ensures StripNonBlank(pages) == pages
  {
    if |pages| > 0 {
      assert forall k :: 1 <= k < |pages| ==> pages[k] == pages[1..][k - 1];
      StripNonBlankOfValid(pages[1..]);
      assert ValidPage(pages[0]);
      StripFixedIffTrimmed(pages[0]);
      assert [pages[0]] + pages[1..] == pages;
    }
  }

  // ---------------------------------------------------------------------
  // Page durations

  /** The `simple_mode` settings: the duration mode and the padding (0.5 s by default). */
  datatype SimpleMode = SimpleMode(durationMode: Option<string>, padding: Option<real>)

  const VoiceMode: string := "voice"

  function Padding(mode: SimpleMode): real {
    mode.padding.GetOr(0.5)
  }

  /** The duration `main` gives a page: the synthesised duration, or the
      text-length estimate when synthesis reports failure, plus the padding
      on both sides in voice mode. */
  function PageDuration(text: string, narration: Voice.Narration, voice: Voice.VoiceConfig, mode: SimpleMode): (d: real)
    requires narration.ok || voice.speedScale != 0.0
    ensures !narration.ok ==> d - Voice.EstimateDuration(text, voice.speedScale) in {0.0, 2.0 * Padding(mode)}
    ensures narration.ok ==> d - narration.seconds in {0.0, 2.0 * Padding(mode)}
    ensures mode.durationMode == Some(VoiceMode) ==>
      d - 2.0 * Padding(mode) == (if narration.ok then narration.seconds else Voice.EstimateDuration(text, voice.speedScale))
    ensures mode.durationMode != Some(VoiceMode) ==>
      d == (if narration.ok then narration.seconds else Voice.EstimateDuration(text, voice.speedScale))
  {
    var base := if narration.ok then narration.seconds else Voice.EstimateDuration(text, voice.speedScale);
    if mode.durationMode == Some(VoiceMode) then base + Padding(mode) * 2.0 else base
  }

  /** Every page gets a non-negative duration when the speed scale and the
      padding are non-negative, so the timeline's clips never overlap. */
  lemma PageDurationNonNegative(text: string, narration: Voice.Narration, voice: Voice.VoiceConfig, mode: SimpleMode)
    requires (narration.ok || voice.speedScale > 0.0) && Padding(mode) >= 0.0 && narration.seconds >= 0.0
    ensures PageDuration(text, narration, voice, mode) >= 0.0
  {
  }

  /** Synthesis reports failure only when even the silent fallback cannot
      be written, so while it can be written the text-length estimate never
      decides a page's duration: the base is 1.0 s, 3.0 s or the measured
      length of the WAV file. */
  lemma EstimateUnusedWhileSilenceWritable(text: string, voice: Voice.VoiceConfig, env: Voice.SynthesisEnv,
                                           mode: SimpleMode)
    requires env.silenceWritable
    ensures Voice.Synthesize(text, voice, env).ok
    ensures PageDuration(text, Voice.Synthesize(text, voice, env), voice, mode)
            - (if mode.durationMode == Some(VoiceMode) then 2.0 * Padding(mode) else 0.0)
            in {1.0, 3.0, Voice.MeasuredDuration(env.wav)}
  {
  }

  // ---------------------------------------------------------------------
  // Asset and output names

  /** `page_{i:02d}.png`. */
  function ImageName(i: nat): (name: string)
    ensures |name| >= 11 && name[..5] == "page_" && name[|name| - 4..] == ".png" && AllDigits(name[5..|name| - 4])
  {
    "page_" + Pad2(i) + ".png"
  }

  /** `page_{i:02d}.wav`. */
  function AudioName(i: nat): (name: string)
    ensures |name| >= 11 && name[..5] == "page_" && name[|name| - 4..] == ".wav" && AllDigits(name[5..|name| - 4])
  {
    "page_" + Pad2(i) + ".wav"
  }

  /** `temp_dir / name`. */
  function InDir(dir: string, name: string): string {
    dir + "/" + name
  }

  lemma StripAffixes(pre: string, a: string, b: string, post: string)
    requires pre + a + post == pre + b + post
    ensures a == b
  {
    assert |a| == |b|;
    assert a == (pre + a + post)[|pre|..|pre| + |a|];
    assert b == (pre + b + post)[|pre|..|pre| + |b|];
  }

  /** Different pages never share an asset file, and an image name is never an audio name. */
  lemma AssetNamesDistinct(i: nat, j: nat)
    ensures i != j ==> ImageName(i) != ImageName(j) && AudioName(i) != AudioName(j)
    ensures ImageName(i) != AudioName(j)
  {
    if ImageName(i) == ImageName(j) {
      StripAffixes("page_", Pad2(i), Pad2(j), ".png");
      Pad2Injective(i, j);
    }
    if AudioName(i) == AudioName(j) {
      StripAffixes("page_", Pad2(i), Pad2(j), ".wav");
      Pad2Injective(i, j);
    }
    var x := ImageName(i);
    var y := AudioName(j);
    assert x[|x| - 1] == 'g' && y[|y| - 1] == 'v';
  }

  /** `shorts_{n}pages_{int(total)}s.mp4`. */
  function OutputName(pageCount: nat, total: real): (name: string)
    ensures |name| > 18 && name[..7] == "shorts_" && name[|name| - 5..] == "s.mp4"
  {
    "shorts_" + (Digits(pageCount) + ("pages_" + (IntToString(Trunc(total)) + "s.mp4")))
  }

  /** Reads the page count and the truncated total back from an output name. */
  function ParseOutputName(name: string): Option<(nat, int)> {
    if |name| < 7 || name[..7] != "shorts_" then None
    else
      var rest := name[7..];
      var digits := TakeDigits(rest);
      var after := rest[|digits|..];
      if |digits| == 0 || |after| < 6 || after[..6] != "pages_" then None
      else match ParseSeconds(after[6..])
        case None => None
        case Some(t) => Some((ParseDigits(digits), t))
  }

  /** Reads the whole seconds back from the `{int(total)}s.mp4` end of an output name. */
  function ParseSeconds(tail: string): Option<int> {
    if |tail| < 5 || tail[|tail| - 5..] != "s.mp4" then None
    else ParseInt(tail[..|tail| - 5])
  }

  lemma ParseSecondsRoundTrip(t: int)
    ensures ParseSeconds(IntToString(t) + "s.mp4") == Some(t)
  {
    var tail := IntToString(t) + "s.mp4";
    assert tail[|tail| - 5..] == "s.mp4";
    assert tail[..|tail| - 5] == IntToString(t);
    ParseIntOfIntToString(t);
  }

  /** The output name records the page count and the whole seconds of the total. */
  lemma OutputNameRoundTrip(pageCount: nat, total: real)
    ensures ParseOutputName(OutputName(pageCount, total)) == Some((pageCount, Trunc(total)))
  {
    var d := Digits(pageCount);
    var tail := IntToString(Trunc(total)) + "s.mp4";
    var after := "pages_" + tail;
    var rest := d + after;
    var name := "shorts_" + rest;
    assert OutputName(pageCount, total) == name;
    assert name[..7] == "shorts_" && name[7..] == rest;
    TakeDigitsOfConcat(d, after);
    assert rest[|d|..] == after;
    assert after[..6] == "pages_" && after[6..] == tail;
    ParseSecondsRoundTrip(Trunc(total));
    ParseDigitsOfDigits(pageCount);
  }

  // ---------------------------------------------------------------------
  // The page loop of `main`

  /** The page record `main` stores for page `i` (numbered from 1). */
  function PageRecord(cfg: Video.VideoConfig, tempDir: string, i: nat, text: string, duration: real): (p: Video.PageData)
    ensures Video.DurationOf(p) == duration && Video.PageNumberOf(p) == i && p.text == Some(text)
    ensures p.backgroundPath == Some(InDir(tempDir, ImageName(i))) && p.audioPath == Some(InDir(tempDir, AudioName(i)))
  {
    Video.CreatePageData(cfg, text, InDir(tempDir, ImageName(i)), InDir(tempDir, AudioName(i)), duration, i)
  }

  /** Every page can be timed: its synthesis succeeds, or the speed scale
      the text-length estimate divides by is not zero. */
  predicate Timeable(pages: seq<string>, envs: seq<Voice.SynthesisEnv>, voice: Voice.VoiceConfig)
    requires |envs| == |pages|
  {
    forall k :: 0 <= k < |pages| ==> Voice.Synthesize(pages[k], voice, envs[k]).ok || voice.speedScale != 0.0
  }

  /** The page durations of the loop of `main`: page `i` is synthesised
      with `envs[i]` and its duration computed from the narration. */
  function PageDurations(pages: seq<string>, envs: seq<Voice.SynthesisEnv>, voice: Voice.VoiceConfig,
                         mode: SimpleMode): (r: seq<real>)
    requires |envs| == |pages|
    requires Timeable(pages, envs, voice)
    ensures |r| == |pages|
  {
    seq(|pages|, i requires 0 <= i < |pages| =>
      PageDuration(pages[i], Voice.Synthesize(pages[i], voice, envs[i]), voice, mode))
  }

  /** The records of the first `n` pages, page `i` numbered `i + 1` and
      lasting `durations[i]`. */
  function PageRecords(cfg: Video.VideoConfig, tempDir: string, pages: seq<string>, durations: seq<real>, n: nat)
    : (r: seq<Video.PageData>)
    requires n <= |pages| && n <= |durations|
    ensures |r| == n
  {
    seq(n, i requires 0 <= i < n => PageRecord(cfg, tempDir, i + 1, pages[i], durations[i]))
  }

  /** Record `i` holds page `i`'s text and duration and is numbered `i + 1`. */
  lemma PageRecordsAt(cfg: Video.VideoConfig, tempDir: string, pages: seq<string>,
                      durations: seq<real>, n: nat, i: nat)
    requires i < n <= |pages| && n <= |durations|
    ensures PageRecords(cfg, tempDir, pages, durations, n)[i] == PageRecord(cfg, tempDir, i + 1, pages[i], durations[i])
    ensures Video.DurationOf(PageRecords(cfg, tempDir, pages, durations, n)[i]) == durations[i]
    ensures Video.PageNumberOf(PageRecords(cfg, tempDir, pages, durations, n)[i]) == i + 1
    ensures PageRecords(cfg, tempDir, pages, durations, n)[i].text == Some(pages[i])
  {
  }

  /** One more page appends its record to the records so far. */
  lemma PageRecordsStep(cfg: Video.VideoConfig, tempDir: string, pages: seq<string>, durations: seq<real>, n: nat)
    requires n < |pages| && n < |durations|
    ensures PageRecords(cfg, tempDir, pages, durations, n + 1)
         == PageRecords(cfg, tempDir, pages, durations, n) + [PageRecord(cfg, tempDir, n + 1, pages[n], durations[n])]
  {
  }

  /** The loop of `main` over the pages: synthesise each page, compute its
      duration, add it to the running total and store the page record.
      `envs[i]` is what the speech server does for page `i`. */
  method ProcessPages(pages: seq<string>, envs: seq<Voice.SynthesisEnv>, voice: Voice.VoiceConfig,
                      mode: SimpleMode, cfg: Video.VideoConfig, tempDir: string)
    returns (pagesData: seq<Video.PageData>, total: real)
    requires |envs| == |pages|
    requires Timeable(pages, envs, voice)
    ensures pagesData == PageRecords(cfg, tempDir, pages, PageDurations(pages, envs, voice, mode), |pages|)
    ensures total == Video.SumDurations(pagesData)
  {
    var planned := PageDurations(pages, envs, voice, mode);
    pagesData := [];
    total := 0.0;
    var i := 0;
    while i < |pages|
      invariant 0 <= i <= |pages|
      invariant pagesData == PageRecords(cfg, tempDir, pages, planned, i)
      invariant total == Video.SumDurations(pagesData)
    {
      var narration := Voice.Synthesize(pages[i], voice, envs[i]);
      var duration := PageDuration(pages[i], narration, voice, mode);
      assert duration == planned[i];
      var record := PageRecord(cfg, tempDir, i + 1, pages[i], duration);
      PageRecordsStep(cfg, tempDir, pages, planned, i);
      Video.SumDurationsAppend(pagesData, record);
      pagesData := pagesData + [record];
      total := total + duration;
      i := i + 1;
    }
  }

  /** With a positive speed scale and non-negative padding every page the
      loop records lasts a non-negative time, so no two page clips of the
      render timeline overlap. */
  lemma PlannedDurationsNonNegative(pages: seq<string>, envs: seq<Voice.SynthesisEnv>, voice: Voice.VoiceConfig,
                                    mode: SimpleMode, cfg: Video.VideoConfig, tempDir: string)
    requires |envs| == |pages|
    requires voice.speedScale > 0.0 && Padding(mode) >= 0.0
    ensures Video.NonNegativeDurations(
      PageRecords(cfg, tempDir, pages, PageDurations(pages, envs, voice, mode), |pages|))
  {
    var ds := PageDurations(pages, envs, voice, mode);
    var records := PageRecords(cfg, tempDir, pages, ds, |pages|);
    forall i | 0 <= i < |pages| ensures Video.DurationOf(records[i]) >= 0.0 {
      PageRecordsAt(cfg, tempDir, pages, ds, |pages|, i);
      Voice.NarrationNonNegative(pages[i], voice, envs[i]);
      PageDurationNonNegative(pages[i], Voice.Synthesize(pages[i], voice, envs[i]), voice, mode);
    }
  }

  // ---------------------------------------------------------------------
  // From the page loop to the render

  /** The sum of a sequence of durations, added left to right. */
  function Sum(xs: seq<real>): real {
    if |xs| == 0 then 0.0 else Sum(xs[..|xs| - 1]) + xs[|xs| - 1]
  }

  /** The records of the first `n` pages last, together, the sum of the
      first `n` durations. */
  lemma {:induction false} RecordsSum(cfg: Video.VideoConfig, tempDir: string, pages: seq<string>,
                                      durations: seq<real>, n: nat)
    requires n <= |pages| && n <= |durations|
    ensures Video.SumDurations(PageRecords(cfg, tempDir, pages, durations, n)) == Sum(durations[..n])
  {
    if n > 0 {
      var all := PageRecords(cfg, tempDir, pages, durations, n);
      assert all[..n - 1] == PageRecords(cfg, tempDir, pages, durations, n - 1);
      RecordsSum(cfg, tempDir, pages, durations, n - 1);
      PageRecordsAt(cfg, tempDir, pages, durations, n, n - 1);
      assert durations[..n][..n - 1] == durations[..n - 1];
    }
  }

  /** `main` from the page loop to the call of `generate_video`: the running
      total is the sum of the page durations, the output name records the
      page count and the whole seconds of that total, and when MoviePy is
      present the render timeline ends exactly at the total (`timelineEnd`
      is the cursor of `generate_video` after the last page). */
  method ProduceVideo(pages: seq<string>, envs: seq<Voice.SynthesisEnv>, voice: Voice.VoiceConfig,
                      mode: SimpleMode, cfg: Video.VideoConfig, tempDir: string,
                      existing: set<string>, renders: seq<Video.RenderEnv>,
                      moviePyAvailable: bool, placeholderWritable: bool, writeSucceeds: bool)
    returns (videoName: string, total: real, ok: bool, timelineEnd: Option<real>)
    requires |envs| == |pages| && |renders| == |pages|
    requires Timeable(pages, envs, voice) && cfg.fps != 0
    ensures timelineEnd.Some? <==> moviePyAvailable
    ensures timelineEnd.Some? ==> timelineEnd.value == total
    ensures !moviePyAvailable ==> (ok <==> placeholderWritable)
    ensures moviePyAvailable ==>
      (ok <==> writeSucceeds && exists k :: 0 <= k < |pages| && renders[k].composes)
    ensures total == Sum(PageDurations(pages, envs, voice, mode))
    ensures ParseOutputName(videoName) == Some((|pages|, Trunc(total)))
  {
    var pagesData;
    pagesData, total := ProcessPages(pages, envs, voice, mode, cfg, tempDir);
    var planned := PageDurations(pages, envs, voice, mode);
    RecordsSum(cfg, tempDir, pages, planned, |pages|);
    assert planned[..|pages|] == planned;
    videoName := OutputName(|pages|, total);
    OutputNameRoundTrip(|pages|, total);
    ok, timelineEnd := Video.GenerateVideo(cfg, pagesData, existing, renders, moviePyAvailable,
                                           placeholderWritable, writeSucceeds);
  }
}

=== FILE: pystr.dfy ===
/** The few pieces of Python's `str` that the pipeline relies on: `isspace`,
    `strip`, `in` (substring test), `split` on a separator, `count` and
    `replace` of a single character, and decimal formatting of integers
    (`str(n)`, `f"{n:02d}"`), each with an independent characterisation. */
module PyStr {
  import opened Common

  /** Python's `str.isspace` for one character (the Unicode whitespace set). */
  predicate IsSpace(c: char) {
    || ('\t' <= c <= '\r')
    || ('\U{1c}' <= c <= '\U{1f}')
    || c == ' ' || c == '\U{85}' || c == '\U{a0}' || c == '\U{1680}'
    || ('\U{2000}' <= c <= '\U{200a}')
    || c == '\U{2028}' || c == '\U{2029}' || c == '\U{202f}' || c == '\U{205f}'
    || c == '\U{3000}'
  }

  /** Number of whitespace characters at the front of `s`. */
  function LeadingSpaces(s: string): (n: nat)
    ensures n <= |s|
    ensures forall i :: 0 <= i < n ==> IsSpace(s[i])
    ensures n == |s| || !IsSpace(s[n])
  {
    if |s| == 0 || !IsSpace(s[0]) then 0 else 1 + LeadingSpaces(s[1..])
  }

  /** Number of whitespace characters at the back of `s`. */
  function TrailingSpaces(s: string): (n: nat)
    ensures n <= |s|
    ensures forall i :: |s| - n <= i < |s| ==> IsSpace(s[i])
    ensures n == |s| || !IsSpace(s[|s| - n - 1])
  {
    if |s| == 0 || !IsSpace(s[|s| - 1]) then 0 else 1 + TrailingSpaces(s[..|s| - 1])
  }

  /** Neither the first nor the last character is whitespace. */
  predicate Trimmed(s: string) {
    |s| == 0 || (!IsSpace(s[0]) && !IsSpace(s[|s| - 1]))
  }

  /** Python's `s.strip()`: the infix of `s` left after dropping leading and
      trailing whitespace. */
  function Strip(s: string): (r: string)
    ensures Trimmed(r)
    ensures LeadingSpaces(s) + |r| <= |s|
  {
    var t := s[LeadingSpaces(s)..];
    t[..|t| - TrailingSpaces(t)]
  }

  /** `strip` keeps the run of characters that starts after the leading whitespace. */
  lemma StripIsInfix(s: string)
    ensures Strip(s) == s[LeadingSpaces(s)..LeadingSpaces(s) + |Strip(s)|]
  {
  }

  /** `strip` removes whitespace and nothing else. */
  lemma StripDropsOnlySpaces(s: string)
    ensures forall i :: 0 <= i < |s| && !(LeadingSpaces(s) <= i < LeadingSpaces(s) + |Strip(s)|) ==> IsSpace(s[i])
  {
    var t := s[LeadingSpaces(s)..];
    assert forall i :: LeadingSpaces(s) <= i < |s| ==> s[i] == t[i - LeadingSpaces(s)];
  }

  /** A trimmed string is its own strip, and only a trimmed one is. */
  lemma StripFixedIffTrimmed(s: string)
    ensures Strip(s) == s <==> Trimmed(s)
  {
    if Trimmed(s) {
      assert LeadingSpaces(s) == 0;
      assert TrailingSpaces(s) == 0;
    }
  }

  /** `not s.strip()`: the string is empty or all whitespace. */
  predicate IsBlank(s: string) {
    Strip(s) == ""
  }

  lemma BlankIffAllSpace(s: string)
    ensures IsBlank(s) <==> forall i :: 0 <= i < |s| ==> IsSpace(s[i])
  {
    StripDropsOnlySpaces(s);
    if !IsBlank(s) {
      var r := Strip(s);
      StripIsInfix(s);
      assert s[LeadingSpaces(s)] == r[0];
    }
  }

  /** Stripping a stripped string changes nothing. */
  lemma StripIdempotent(s: string)
    ensures Strip(Strip(s)) == Strip(s)
  {
    StripFixedIffTrimmed(Strip(s));
  }

  /** Occurrences of `c` in `s` (Python's `s.count(c)` for a one-character `c`). */
  function CountChar(s: string, c: char): (n: nat)
    ensures n <= |s|
    ensures n == 0 <==> c !in s
  {
    if |s| == 0 then 0 else (if s[0] == c then 1 else 0) + CountChar(s[1..], c)
  }

  /** Python's `s.replace(c, '')` for a one-character `c`. */
  function RemoveChar(s: string, c: char): (r: string)
    ensures |r| + CountChar(s, c) == |s|
    ensures c !in r
    ensures forall d :: d != c ==> CountChar(r, d) == CountChar(s, d)
  {
    if |s| == 0 then ""
    else if s[0] == c then RemoveChar(s[1..], c)
    else [s[0]] + RemoveChar(s[1..], c)
  }

  /** `t` occurs in `s` starting at index `i`. */
  predicate OccursAt(s: string, t: string, i: int) {
    0 <= i && i + |t| <= |s| && s[i..i + |t|] == t
  }

  function FindFrom(s: string, t: string, from: nat): (r: Option<nat>)
    requires from <= |s|
    ensures r.Some? ==> from <= r.value && OccursAt(s, t, r.value)
    ensures r.Some? ==> forall j :: from <= j < r.value ==> !OccursAt(s, t, j)
    ensures r.None? ==> forall j :: from <= j ==> !OccursAt(s, t, j)
    decreases |s| - from
  {
    if from + |t| > |s| then None
    else if s[from..from + |t|] == t then Some(from)
    else if from == |s| then None
    else FindFrom(s, t, from + 1)
  }

  /** Python's `s.find(t)`, with `None` for -1: the first occurrence of `t`. */
  function FindFirst(s: string, t: string): (r: Option<nat>)
    ensures r.Some? ==> OccursAt(s, t, r.value)
    ensures r.Some? ==> forall j :: 0 <= j < r.value ==> !OccursAt(s, t, j)
    ensures r.None? ==> forall j :: !OccursAt(s, t, j)
  {
    FindFrom(s, t, 0)
  }

  /** Python's `t in s`. */
  predicate Contains(s: string, t: string) {
    FindFirst(s, t).Some?
  }

  lemma ContainsIffOccurs(s: string, t: string)
    ensures Contains(s, t) <==> exists i :: OccursAt(s, t, i)
  {
  }

  /** A substring of a string that does not contain `t` does not contain it either. */
  lemma NotContainsInfix(s: string, t: string, a: nat, b: nat)
    requires a <= b <= |s|
    requires !Contains(s, t)
    ensures !Contains(s[a..b], t)
  {
    if Contains(s[a..b], t) {
      var u := s[a..b];
      var i := FindFirst(u, t).value;
      assert u[i..i + |t|] == t;
      forall j | 0 <= j < |t| ensures s[a + i + j] == t[j] {
        assert u[i + j] == s[a + i + j];
        assert u[i..i + |t|][j] == u[i + j];
      }
      assert s[a + i..a + i + |t|] == t;
      assert OccursAt(s, t, a + i);
    }
  }

  /** Python's `s.split(sep)` for a non-empty separator: the pieces between
      the non-overlapping occurrences of `sep`, scanned left to right. */
  function Split(s: string, sep: string): (r: seq<string>)
    requires |sep| > 0
    ensures |r| >= 1
    ensures forall k :: 0 <= k < |r| ==> !Contains(r[k], sep)
    decreases |s|
  {
    match FindFirst(s, sep)
    case None => [s]
    case Some(i) =>
      NotContainsPrefixBeforeFirst(s, sep, i);
      [s[..i]] + Split(s[i + |sep|..], sep)
  }

  lemma NotContainsPrefixBeforeFirst(s: string, sep: string, i: nat)
    requires |sep| > 0
    requires FindFirst(s, sep) == Some(i)
    ensures !Contains(s[..i], sep)
  {
    if Contains(s[..i], sep) {
      var j := FindFirst(s[..i], sep).value;
      assert j < i;
      assert s[..i][j..j + |sep|] == s[j..j + |sep|];
      assert OccursAt(s, sep, j);
    }
  }

  /** Python's `sep.join(parts)`. */
  function Join(parts: seq<string>, sep: string): string {
    if |parts| == 0 then ""
    else if |parts| == 1 then parts[0]
    else parts[0] + sep + Join(parts[1..], sep)
  }

  lemma JoinCons(head: string, tail: seq<string>, sep: string)
    requires |tail| >= 1
    ensures Join([head] + tail, sep) == head + sep + Join(tail, sep)
  {
    assert ([head] + tail)[1..] == tail;
  }

  /** One step of `Split`: the piece before the first separator, then the
      pieces of what follows it. */
  lemma SplitStep(s: string, sep: string, i: nat)
    requires |sep| > 0
    requires FindFirst(s, sep) == Some(i)
    ensures Split(s, sep) == [s[..i]] + Split(s[i + |sep|..], sep)
  {
  }

  lemma SliceThree(s: string, i: nat, j: nat)
    requires i <= j <= |s|
    ensures s == s[..i] + s[i..j] + s[j..]
  {
    assert s[..j] == s[..i] + s[i..j];
    assert s == s[..j] + s[j..];
  }

  /** Splitting loses nothing: joining the pieces with the separator gives
      back the original string. */
  lemma {:induction false} JoinSplit(s: string, sep: string)
    requires |sep| > 0
    ensures Join(Split(s, sep), sep) == s
    decreases |s|
  {
    var f := FindFirst(s, sep);
    if f.Some? {
      var i := f.value;
      var rest := s[i + |sep|..];
      JoinSplit(rest, sep);
      SplitStep(s, sep, i);
      JoinCons(s[..i], Split(rest, sep), sep);
      assert s[i..i + |sep|] == sep;
      SliceThree(s, i, i + |sep|);
    }
  }

  // ---------------------------------------------------------------------
  // Decimal formatting

  predicate IsDigit(c: char) {
    '0' <= c <= '9'
  }

  predicate AllDigits(s: string) {
    forall i :: 0 <= i < |s| ==> IsDigit(s[i])
  }

  function DigitChar(d: nat): (c: char)
    requires d < 10
    ensures IsDigit(c)
  {
    "0123456789"[d]
  }

  function DigitValue(c: char): nat
    requires IsDigit(c)
  {
    (c as int - '0' as int) as nat
  }

  /** Python's `str(n)` for a natural number. */
  function Digits(n: nat): (r: string)
    ensures |r| >= 1 && AllDigits(r)
    ensures |r| == 1 <==> n < 10
    ensures 10 <= n < 100 ==> |r| == 2
    ensures r[0] == '0' <==> n == 0
  {
    if n < 10 then [DigitChar(n)] else Digits(n / 10) + [DigitChar(n % 10)]
  }

  /** Python's `str(i)` for any integer. */
  function IntToString(i: int): (r: string)
    ensures |r| >= 1
  {
    if i < 0 then "-" + Digits(-i) else Digits(i)
  }

  /** Python's `f"{n:02d}"` for a natural number: at least two digits, zero-padded. */
  function Pad2(n: nat): (r: string)
    ensures |r| >= 2 && AllDigits(r)
    ensures n < 100 ==> |r| == 2
    ensures |r| == 2 || r[0] != '0'
  {
    if n < 10 then "0" + Digits(n) else Digits(n)
  }

  /** The value of a string of decimal digits (leading zeros allowed). */
  function ParseDigits(s: string): nat
    requires AllDigits(s)
  {
    if |s| == 0 then 0 else ParseDigits(s[..|s| - 1]) * 10 + DigitValue(s[|s| - 1])
  }

  /** Inverse of `IntToString`: an optional minus sign followed by digits. */
  function ParseInt(s: string): Option<int> {
    if |s| >= 2 && s[0] == '-' && AllDigits(s[1..]) then Some(0 - ParseDigits(s[1..]) as int)
    else if |s| >= 1 && AllDigits(s) then Some(ParseDigits(s))
    else None
  }

  lemma {:induction false} ParseDigitsOfDigits(n: nat)
    ensures ParseDigits(Digits(n)) == n
  {
    if n >= 10 {
      ParseDigitsOfDigits(n / 10);
      var d := Digits(n);
      assert d[..|d| - 1] == Digits(n / 10);
    }
  }

  lemma ParseIntOfIntToString(i: int)
    ensures ParseInt(IntToString(i)) == Some(i)
  {
    if i < 0 {
      var n: nat := -i;
      ParseDigitsOfDigits(n);
      ParseIntOfSigned(Digits(n));
      assert IntToString(i) == "-" + Digits(n);
    } else {
      ParseDigitsOfDigits(i);
      ParseIntOfUnsigned(Digits(i));
    }
  }

  /** A minus sign followed by digits reads back as the negated digits. */
  lemma ParseIntOfSigned(d: string)
    requires |d| >= 1 && AllDigits(d)
    ensures ParseInt("-" + d) == Some(0 - ParseDigits(d) as int)
  {
    assert ("-" + d)[1..] == d;
  }

  /** Digits alone read back as their value. */
  lemma ParseIntOfUnsigned(d: string)
    requires |d| >= 1 && AllDigits(d)
    ensures ParseInt(d) == Some(ParseDigits(d) as int)
  {
    assert IsDigit(d[0]);
  }

  lemma ParseDigitsOfPad2(n: nat)
    ensures ParseDigits(Pad2(n)) == n
  {
    ParseDigitsOfDigits(n);
    if n < 10 {
      var p := Pad2(n);
      assert p[..1] == "0";
    }
  }

  /** Zero-padding keeps distinct numbers distinct. */
  lemma Pad2Injective(m: nat, n: nat)
    requires Pad2(m) == Pad2(n)
    ensures m == n
  {
    ParseDigitsOfPad2(m);
    ParseDigitsOfPad2(n);
  }

  /** The longest prefix of `s` made of digits. */
  function TakeDigits(s: string): (r: string)
    ensures |r| <= |s| && r == s[..|r|] && AllDigits(r)
    ensures |r| == |s| || !IsDigit(s[|r|])
  {
    if |s| == 0 || !IsDigit(s[0]) then "" else [s[0]] + TakeDigits(s[1..])
  }

  lemma {:induction false} TakeDigitsOfConcat(a: string, b: string)
    requires AllDigits(a)
    requires |b| == 0 || !IsDigit(b[0])
    ensures TakeDigits(a + b) == a
  {
    if |a| > 0 {
      assert (a + b)[1..] == a[1..] + b;
      TakeDigitsOfConcat(a[1..], b);
    } else {
      assert a + b == b;
    }
  }
}

=== FILE: upload.dfy ===
/** The decisions of `youtube_uploader.py`: the resumable-upload retry loop
    as a state machine over the outcomes of successive `next_chunk` calls,
    the preconditions and request body of `upload_video`, and the result
    selection of `get_channel_info`. OAuth, the HTTP client and `sleep` are
    not modelled; their outcomes are parameters, and the backoff delays are
    returned instead of slept. */
module Upload {
  import opened Common
  import opened PyStr

  // ---------------------------------------------------------------------
  // The resumable-upload loop (`_resumable_upload`)

  /** The outcome of one `next_chunk` call: more to send, the final response
      (with its `id` field when present), an `HttpError` with its status,
      or any other exception. */
  datatype Chunk = Progress | Complete(id: Option<string>) | HttpFailure(status: int) | Crash

  /** Server errors that are retried. */
  const Transient: set<int> := {500, 502, 503, 504}

  /** Retries allowed before giving up. */
  const MaxRetries: nat := 3

  /** A chunk outcome after which the loop keeps going (unless the retry cap is hit). */
  predicate Recoverable(c: Chunk) {
    c.Progress? || (c.HttpFailure? && c.status in Transient)
  }

  function Pow2(n: nat): (r: nat)
    ensures r >= 1
  {
    if n == 0 then 1 else 2 * Pow2(n - 1)
  }

  /** How the loop ends: the video id, `None` returned, or the chunk
      outcomes ran out while the loop was still going. */
  datatype UploadResult = Uploaded(id: string) | Abandoned | Unfinished

  /** The loop's result and the backoff delays (in seconds) it waited, in order. */
  datatype UploadRun = UploadRun(result: UploadResult, backoffs: seq<nat>)

  /** `_resumable_upload` from retry count `retry`, fed the chunk outcomes in
      order: a final response with an id ends it, one without an id returns
      `None`; a transient server error raises the retry count and waits
      `2 ** retry` seconds, and the fourth one returns `None`; any other
      error returns `None` at once. */
  function ResumableUpload(chunks: seq<Chunk>, retry: nat): (r: UploadRun)
    requires retry <= MaxRetries
    ensures |r.backoffs| <= MaxRetries - retry
    ensures forall i :: 0 <= i < |r.backoffs| ==> r.backoffs[i] == Pow2(retry + i + 1)
    ensures r.result.Uploaded? ==> Complete(Some(r.result.id)) in chunks
    ensures r.result.Unfinished? ==> forall k :: 0 <= k < |chunks| ==> Recoverable(chunks[k])
    decreases |chunks|
  {
    if |chunks| == 0 then UploadRun(Unfinished, [])
    else
      assert forall k :: 1 <= k < |chunks| ==> chunks[k] == chunks[1..][k - 1];
      match chunks[0]
      case Progress => ResumableUpload(chunks[1..], retry)
      case Complete(id) =>
        if id.Some? then UploadRun(Uploaded(id.value), []) else UploadRun(Abandoned, [])
      case HttpFailure(status) =>
        if status !in Transient then UploadRun(Abandoned, [])
        else if retry + 1 > MaxRetries then UploadRun(Abandoned, [])
        else
          var rest := ResumableUpload(chunks[1..], retry + 1);
          UploadRun(rest.result, [Pow2(retry + 1)] + rest.backoffs)
      case Crash => UploadRun(Abandoned, [])
  }

  /** A run from a fresh retry count waits 2, 4 and then 8 seconds at most. */
  lemma BackoffSchedule(chunks: seq<Chunk>)
    ensures ResumableUpload(chunks, 0).backoffs <= [2, 4, 8]
  {
    var b := ResumableUpload(chunks, 0).backoffs;
    assert Pow2(1) == 2 && Pow2(2) == 4 && Pow2(3) == 8;
    assert b == [2, 4, 8][..|b|];
  }

  /** Chunks that only report progress change nothing. */
  lemma {:induction false} ProgressSkipped(progress: seq<Chunk>, rest: seq<Chunk>, retry: nat)
    requires retry <= MaxRetries
    requires forall k :: 0 <= k < |progress| ==> progress[k] == Progress
    ensures ResumableUpload(progress + rest, retry) == ResumableUpload(rest, retry)
  {
    if |progress| > 0 {
      assert (progress + rest)[0] == Progress;
      assert (progress + rest)[1..] == progress[1..] + rest;
      assert forall k :: 0 <= k < |progress| - 1 ==> progress[1..][k] == progress[k + 1];
      ProgressSkipped(progress[1..], rest, retry);
    } else {
      assert progress + rest == rest;
    }
  }

  /** A final response without an `id`, a non-transient HTTP error or any
      other exception ends the loop with `None` and no retry, whatever
      follows. */
  lemma FatalErrorAbandons(c: Chunk, rest: seq<Chunk>, retry: nat)
    requires retry <= MaxRetries
    requires c == Complete(None) || c.Crash? || (c.HttpFailure? && c.status !in Transient)
    ensures ResumableUpload([c] + rest, retry) == UploadRun(Abandoned, [])
  {
    assert ([c] + rest)[0] == c;
  }

  /** Number of transient errors among the chunk outcomes. */
  function TransientCount(chunks: seq<Chunk>): (n: nat)
    ensures n <= |chunks|
  {
    if |chunks| == 0 then 0
    else (if chunks[0].HttpFailure? && chunks[0].status in Transient then 1 else 0) + TransientCount(chunks[1..])
  }

  /** Once more transient errors arrive than retries remain, with nothing
      but progress in between, the loop gives up after waiting once per
      remaining retry, whatever comes after the first `n` outcomes. */
  lemma {:induction false} RetriesExhausted(chunks: seq<Chunk>, retry: nat, n: nat)
    requires retry <= MaxRetries
    requires n <= |chunks|
    requires forall k :: 0 <= k < n ==> Recoverable(chunks[k])
    requires TransientCount(chunks[..n]) > MaxRetries - retry
    ensures ResumableUpload(chunks, retry).result == Abandoned
    ensures |ResumableUpload(chunks, retry).backoffs| == MaxRetries - retry
    decreases n
  {
    assert chunks[..n][1..] == chunks[1..][..n - 1];
    assert forall k :: 0 <= k < n - 1 ==> chunks[1..][k] == chunks[k + 1];
    if chunks[0].Progress? {
      RetriesExhausted(chunks[1..], retry, n - 1);
    } else if retry + 1 <= MaxRetries {
      RetriesExhausted(chunks[1..], retry + 1, n - 1);
    }
  }

  /** A final response with an id that comes after only recoverable outcomes,
      with no more transient errors than retries remain, is the result. */
  lemma {:induction false} CompletesWithinRetries(chunks: seq<Chunk>, retry: nat, k: nat, id: string)
    requires retry <= MaxRetries
    requires k < |chunks| && chunks[k] == Complete(Some(id))
    requires forall j :: 0 <= j < k ==> Recoverable(chunks[j])
    requires TransientCount(chunks[..k]) <= MaxRetries - retry
    ensures ResumableUpload(chunks, retry).result == Uploaded(id)
    ensures |ResumableUpload(chunks, retry).backoffs| == TransientCount(chunks[..k])
    decreases k
  {
    if k > 0 {
      assert chunks[..k][1..] == chunks[1..][..k - 1];
      assert forall j :: 0 <= j < k - 1 ==> chunks[1..][j] == chunks[j + 1];
      if chunks[0].Progress? {
        CompletesWithinRetries(chunks[1..], retry, k - 1, id);
      } else {
        CompletesWithinRetries(chunks[1..], retry + 1, k - 1, id);
      }
    }
  }

  // ---------------------------------------------------------------------
  // `upload_video`

  /** The `youtube` settings; absent keys are `None`. */
  datatype YouTubeConfig = YouTubeConfig(defaultPrivacy: Option<string>, defaultCategory: Option<string>)

  /** The metadata sent with the video. */
  datatype UploadBody = UploadBody(title: string, description: string, tags: seq<string>, categoryId: string,
                                   privacyStatus: string, madeForKids: bool)

  /** The top-level keys of the body, in order; the request's `part` joins them. */
  const BodyKeys: seq<string> := ["snippet", "status"]

  function UploadBodyFor(cfg: YouTubeConfig, title: string, description: string): (b: UploadBody)
    ensures b.title == title && b.description == description && !b.madeForKids
    ensures cfg.defaultCategory.None? ==> b.categoryId == "22"
    ensures cfg.defaultPrivacy.None? ==> b.privacyStatus == "private"
    ensures cfg.defaultCategory.Some? ==> b.categoryId == cfg.defaultCategory.value
    ensures cfg.defaultPrivacy.Some? ==> b.privacyStatus == cfg.defaultPrivacy.value
  {
    UploadBody(title, description, ["shorts", "ai", "generated"], cfg.defaultCategory.GetOr("22"),
               cfg.defaultPrivacy.GetOr("private"), false)
  }

  /** The request asks for `snippet,status`, and the body carries the given
      title and description, the fixed tags, the configured category and
      privacy (People & Blogs and private by default), and is not declared
      as made for kids. */
  lemma UploadRequestShape(cfg: YouTubeConfig, title: string, description: string)
    ensures Join(BodyKeys, ",") == "snippet,status"
    ensures UploadBodyFor(cfg, title, description).title == title
    ensures UploadBodyFor(cfg, title, description).description == description
    ensures UploadBodyFor(cfg, title, description).tags == ["shorts", "ai", "generated"]
    ensures cfg.defaultCategory.None? ==> UploadBodyFor(cfg, title, description).categoryId == "22"
    ensures cfg.defaultPrivacy.None? ==> UploadBodyFor(cfg, title, description).privacyStatus == "private"
    ensures !UploadBodyFor(cfg, title, description).madeForKids
  {
    assert BodyKeys[1..] == ["status"];
  }

  /** What `upload_video` depends on besides its arguments: whether the API
      library is installed, whether `authenticate` built the service,
      which files exist, whether building the request succeeds, and the
      outcomes of the chunk uploads. */
  datatype UploadEnv = UploadEnv(apiAvailable: bool, authenticated: bool, existing: set<string>,
                                 requestBuilt: bool, chunks: seq<Chunk>)

  /** `upload_video`: `None` without the library, without authentication or
      without the file, and when building the request fails; otherwise the
      id the resumable upload ends with, or `None`. */
  function UploadVideo(env: UploadEnv, videoPath: string): (r: Observed<Option<string>>)
    ensures !env.apiAvailable || !env.authenticated || videoPath !in env.existing ==> r == Settled(None)
    ensures r.Undecided? <==> env.apiAvailable && env.authenticated && videoPath in env.existing && env.requestBuilt
                              && ResumableUpload(env.chunks, 0).result.Unfinished?
    ensures !env.requestBuilt ==> r == Settled(None)
    ensures env.apiAvailable && env.authenticated && videoPath in env.existing && env.requestBuilt ==>
      && (ResumableUpload(env.chunks, 0).result.Uploaded? ==>
            r == Settled(Some(ResumableUpload(env.chunks, 0).result.id)))
      && (ResumableUpload(env.chunks, 0).result.Abandoned? ==> r == Settled(None))
    ensures r.Settled? && r.value.Some? ==> Complete(Some(r.value.value)) in env.chunks
  {
    if !env.apiAvailable || !env.authenticated || videoPath !in env.existing || !env.requestBuilt then Settled(None)
    else match ResumableUpload(env.chunks, 0).result
      case Uploaded(id) => Settled(Some(id))
      case Abandoned => Settled(None)
      case Unfinished => Undecided
  }

  /** An upload whose first chunk outcome is a fatal error returns `None`. */
  lemma UploadFailsOnFatalError(env: UploadEnv, videoPath: string)
    requires |env.chunks| > 0
    requires env.chunks[0].Crash? || (env.chunks[0].HttpFailure? && env.chunks[0].status !in Transient)
    ensures UploadVideo(env, videoPath) == Settled(None)
  {
    assert env.chunks == [env.chunks[0]] + env.chunks[1..];
    FatalErrorAbandons(env.chunks[0], env.chunks[1..], 0);
  }

  /** A ready upload whose final response carries an id, reached through
      progress reports and at most three transient errors, returns that id. */
  lemma UploadReturnsId(env: UploadEnv, videoPath: string, k: nat, id: string)
    requires env.apiAvailable && env.authenticated && videoPath in env.existing && env.requestBuilt
    requires k < |env.chunks| && env.chunks[k] == Complete(Some(id))
    requires forall j :: 0 <= j < k ==> Recoverable(env.chunks[j])
    requires TransientCount(env.chunks[..k]) <= MaxRetries
    ensures UploadVideo(env, videoPath) == Settled(Some(id))
  {
    CompletesWithinRetries(env.chunks, 0, k, id);
  }

  // ---------------------------------------------------------------------
  // `get_channel_info`

  /** The channel statistics; counts are `None` when absent. */
  datatype Statistics = Statistics(subscriberCount: Option<string>, videoCount: Option<string>)

  /** One entry of `items`; a field is `None` when its key is absent. */
  datatype ChannelItem = ChannelItem(id: Option<string>, title: Option<string>, statistics: Option<Statistics>)

  /** The reply to `channels().list`: an `HttpError`, or the `items` field
      (`None` when absent or null). */
  datatype ChannelReply = ChannelHttpError | ChannelAnswer(items: Option<seq<ChannelItem>>)

  /** A count as reported, or the default 0 when the key is absent. */
  datatype Count = Reported(text: string) | Zero

  datatype ChannelInfo = ChannelInfo(id: string, title: string, subscriberCount: Count, videoCount: Count)

  /** How `get_channel_info` ends: the channel, `None`, or a `KeyError`
      that it does not catch. */
  datatype ChannelLookup = Found(info: ChannelInfo) | NotFound | Propagates

  function CountOf(c: Option<string>): Count {
    match c
    case Some(t) => Reported(t)
    case None => Zero
  }

  /** `get_channel_info`: `None` when not authenticated, on an HTTP error or
      when there are no items; otherwise the first item's id, title and
      counts (0 when absent). */
  function GetChannelInfo(authenticated: bool, reply: ChannelReply): (r: ChannelLookup)
    ensures !authenticated || reply.ChannelHttpError? ==> r == NotFound
    ensures authenticated && reply.ChannelAnswer? && (reply.items.None? || |reply.items.value| == 0) ==> r == NotFound
    ensures r.Found? ==>
      && authenticated && reply.ChannelAnswer? && reply.items.Some? && |reply.items.value| > 0
      && Some(r.info.id) == reply.items.value[0].id
      && Some(r.info.title) == reply.items.value[0].title
      && reply.items.value[0].statistics.Some?
    ensures authenticated && reply.ChannelAnswer? && reply.items.Some? && |reply.items.value| > 0 ==>
      (r.Found? <==> reply.items.value[0].id.Some? && reply.items.value[0].title.Some?
                     && reply.items.value[0].statistics.Some?)
    ensures r.Propagates? <==>
      && authenticated && reply.ChannelAnswer? && reply.items.Some? && |reply.items.value| > 0
      && (reply.items.value[0].id.None? || reply.items.value[0].title.None? || reply.items.value[0].statistics.None?)
    ensures r.Found? && reply.items.value[0].statistics.value.subscriberCount.None? ==> r.info.subscriberCount == Zero
    ensures r.Found? && reply.items.value[0].statistics.value.videoCount.None? ==> r.info.videoCount == Zero
    ensures r.Found? && reply.items.value[0].statistics.value.subscriberCount.Some? ==>
      r.info.subscriberCount == Reported(reply.items.value[0].statistics.value.subscriberCount.value)
    ensures r.Found? && reply.items.value[0].statistics.value.videoCount.Some? ==>
      r.info.videoCount == Reported(reply.items.value[0].statistics.value.videoCount.value)
  {
    if !authenticated then NotFound
    else match reply
      case ChannelHttpError => NotFound
      case ChannelAnswer(items) =>
        if items.None? || |items.value| == 0 then NotFound
        else
          var item := items.value[0];
          if item.id.None? || item.title.None? || item.statistics.None? then Propagates
          else Found(ChannelInfo(item.id.value, item.title.value, CountOf(item.statistics.value.subscriberCount),
                                 CountOf(item.statistics.value.videoCount)))
  }
}

=== FILE: video.dfy ===
/** The renderer of `video_generator.py`: page records, the page-number
    dependent layout of the image and the caption, the fixed layer order of
    a page clip, the fade-in length, and the timeline cursor that places
    every page clip and its narration at the same start offset.
    MoviePy and PIL are not modelled: a clip is a record of its start, its
    duration and its layers, and what the libraries do with a page (load
    the image, render the caption, composite) is a parameter (`RenderEnv`).
    File existence is the set `existing` of paths that exist. */
module Video {
  import opened Common

  /** The `video` and `text` settings the renderer reads. */
  datatype VideoConfig = VideoConfig(
    width: int,
    height: int,
    fps: int,
    fadeFrames: int,       // `animation.fade_duration`, in frames
    defaultFontSize: int,
    defaultColor: string)

  const DefaultVideoConfig: VideoConfig := VideoConfig(1080, 1920, 30, 20, 32, "#000000")

  /** The duration of a page whose record has none. */
  const DefaultDuration: real := 3.0

  /** A page record as `create_page_data` builds it; every field is optional
      because the renderer reads each one with a default. */
  datatype PageData = PageData(
    text: Option<string>,
    backgroundPath: Option<string>,
    audioPath: Option<string>,
    duration: Option<real>,
    pageNumber: Option<int>,
    fontSize: Option<int>,
    color: Option<string>,
    animation: Option<string>)

  function DurationOf(p: PageData): real {
    p.duration.GetOr(DefaultDuration)
  }

  function PageNumberOf(p: PageData): int {
    p.pageNumber.GetOr(1)
  }

  const FadeIn: string := "fade_in"

  /** `create_page_data`: a complete record, with the configured font size
      and colour and the fade-in animation. */
  function CreatePageData(cfg: VideoConfig, text: string, imagePath: string, audioPath: string,
                          duration: real, pageNumber: int): (p: PageData)
    ensures DurationOf(p) == duration && PageNumberOf(p) == pageNumber
    ensures p.text == Some(text) && p.backgroundPath == Some(imagePath) && p.audioPath == Some(audioPath)
    ensures p.fontSize.GetOr(0) == cfg.defaultFontSize && p.color.GetOr("") == cfg.defaultColor
    ensures p.animation.GetOr("") == FadeIn
  {
    PageData(Some(text), Some(imagePath), Some(audioPath), Some(duration), Some(pageNumber),
             Some(cfg.defaultFontSize), Some(cfg.defaultColor), Some(FadeIn))
  }

  // ---------------------------------------------------------------------
  // Layout

  /** Side of the square page image: half the canvas width on page 1, nine
      tenths of it on every other page. */
  function ImageSide(cfg: VideoConfig, pageNumber: int): (side: int)
    ensures cfg.width >= 0 && pageNumber == 1 ==>
      0 <= side && side as real <= cfg.width as real * 0.5 < side as real + 1.0
    ensures cfg.width >= 0 && pageNumber != 1 ==>
      0 <= side && side as real <= cfg.width as real * 0.9 < side as real + 1.0
  {
    if pageNumber == 1 then Trunc(cfg.width as real * 0.5) else Trunc(cfg.width as real * 0.9)
  }

  /** Top edge of the page image: page 1 centres it on 80% of the canvas
      height; other pages put it at 20% of the height. */
  function ImageTop(cfg: VideoConfig, pageNumber: int): (top: int)
    ensures pageNumber == 1 && ImageSide(cfg, 1) as real <= cfg.height as real * 1.6 ==>
      top as real <= cfg.height as real * 0.8 - ImageSide(cfg, 1) as real / 2.0 < top as real + 1.0
    ensures pageNumber != 1 && cfg.height >= 0 ==>
      top as real <= cfg.height as real * 0.2 < top as real + 1.0
  {
    if pageNumber == 1 then Trunc(cfg.height as real * 0.8 - ImageSide(cfg, pageNumber) as real / 2.0)
    else Trunc(cfg.height as real * 0.2)
  }

  /** Top edge of the caption: 15% of the canvas height on page 1, 75% otherwise. */
  function CaptionTop(cfg: VideoConfig, pageNumber: int): (top: int)
    ensures cfg.height >= 0 && pageNumber == 1 ==> top as real <= cfg.height as real * 0.15 < top as real + 1.0
    ensures cfg.height >= 0 && pageNumber != 1 ==> top as real <= cfg.height as real * 0.75 < top as real + 1.0
  {
    if pageNumber == 1 then Trunc(cfg.height as real * 0.15) else Trunc(cfg.height as real * 0.75)
  }

  /** Width of the caption box: 90% of the canvas width. */
  function CaptionWidth(cfg: VideoConfig): (w: int)
    ensures cfg.width >= 0 ==> w as real <= cfg.width as real * 0.9 < w as real + 1.0
  {
    Trunc(cfg.width as real * 0.9)
  }

  /** On a portrait canvas (width at most 80% of the height) the page image
      lies inside the canvas, whatever the page number. */
  lemma ImageWithinCanvas(cfg: VideoConfig, pageNumber: int)
    requires 0 < cfg.width && 5 * cfg.width <= 4 * cfg.height
    ensures 0 <= ImageSide(cfg, pageNumber) <= cfg.width
    ensures 0 <= ImageTop(cfg, pageNumber)
    ensures ImageTop(cfg, pageNumber) + ImageSide(cfg, pageNumber) <= cfg.height
  {
    var w := cfg.width as real;
    var h := cfg.height as real;
    var side := ImageSide(cfg, pageNumber);
    if pageNumber == 1 {
      assert side as real <= w * 0.5;
      var y := h * 0.8 - side as real / 2.0;
      assert y >= 0.0;
      assert ImageTop(cfg, pageNumber) as real <= y;
      assert ImageTop(cfg, pageNumber) as real + side as real <= h;
    } else {
      assert side as real <= w * 0.9;
      assert ImageTop(cfg, pageNumber) as real <= h * 0.2;
      assert ImageTop(cfg, pageNumber) as real + side as real <= h;
    }
  }

  /** The caption sits on the side of the canvas the image leaves free: above
      the image on page 1, below the image's bottom edge on other pages (for
      canvases at least as tall as the default 1080x1920 proportions need). */
  lemma CaptionOppositeImage(cfg: VideoConfig, pageNumber: int)
    requires 0 < cfg.width && 18 * cfg.width <= 11 * cfg.height
    ensures pageNumber == 1 ==> CaptionTop(cfg, pageNumber) < ImageTop(cfg, pageNumber)
    ensures pageNumber != 1 ==>
      ImageTop(cfg, pageNumber) + ImageSide(cfg, pageNumber) <= CaptionTop(cfg, pageNumber)
  {
    var w := cfg.width as real;
    var h := cfg.height as real;
    var side := ImageSide(cfg, pageNumber);
    if pageNumber == 1 {
      assert side as real <= w * 0.5;
      var y := h * 0.8 - side as real / 2.0;
      assert y >= h * 0.15 + 1.0;
      assert CaptionTop(cfg, pageNumber) as real <= h * 0.15;
      assert ImageTop(cfg, pageNumber) as real > y - 1.0;
    } else {
      assert side as real <= w * 0.9;
      var bottom := h * 0.2 + w * 0.9;
      assert bottom <= h * 0.75;
      assert (ImageTop(cfg, pageNumber) + side) as real <= bottom;
      assert (CaptionTop(cfg, pageNumber) + 1) as real > h * 0.75;
    }
  }

  /** The layout of the default 1080x1920 canvas. */
  lemma DefaultCanvasLayout()
    ensures ImageSide(DefaultVideoConfig, 1) == 540 && ImageTop(DefaultVideoConfig, 1) == 1266
    ensures ImageSide(DefaultVideoConfig, 2) == 972 && ImageTop(DefaultVideoConfig, 2) == 384
    ensures CaptionTop(DefaultVideoConfig, 1) == 288 && CaptionTop(DefaultVideoConfig, 2) == 1440
    ensures CaptionWidth(DefaultVideoConfig) == 972
  {
  }

  /** `fade_duration` converted from frames to seconds. */
  function FadeSeconds(cfg: VideoConfig): real
    requires cfg.fps != 0
  {
    cfg.fadeFrames as real / cfg.fps as real
  }

  /** `_apply_fade_in_effect`: the fade lasts the configured time, cut to a
      third of the page duration. */
  function FadeInLength(cfg: VideoConfig, duration: real): (f: real)
    requires cfg.fps != 0
    ensures f <= duration / 3.0 && f <= FadeSeconds(cfg)
    ensures f == duration / 3.0 || f == FadeSeconds(cfg)
  {
    Min(FadeSeconds(cfg), duration / 3.0)
  }

  // ---------------------------------------------------------------------
  // Page clips

  /** A drawable layer of a page clip. Pictures and captions are horizontally
      centred; only their top edge is recorded. */
  datatype Layer =
    | Backdrop(width: int, height: int, duration: real)   // white, full canvas
    | Picture(path: string, side: int, top: int, duration: real)
    | Caption(text: string, fontSize: int, color: string, boxWidth: Option<int>,
              top: int, fadeIn: real, duration: real)

  /** Painting order: backdrop, then picture, then captions. */
  function Rank(l: Layer): nat {
    match l
    case Backdrop(_, _, _) => 0
    case Picture(_, _, _, _) => 1
    case Caption(_, _, _, _, _, _, _) => 2
  }

  /** One backdrop, first, and the other layers never out of rank order. */
  predicate PaintOrder(layers: seq<Layer>) {
    && |layers| >= 1
    && layers[0].Backdrop?
    && (forall i :: 1 <= i < |layers| ==> !layers[i].Backdrop?)
    && (forall i, j :: 0 <= i < j < |layers| ==> Rank(layers[i]) <= Rank(layers[j]))
  }

  predicate HasPicture(layers: seq<Layer>) {
    exists i :: 0 <= i < |layers| && layers[i].Picture?
  }

  predicate HasCaption(layers: seq<Layer>) {
    exists i :: 0 <= i < |layers| && layers[i].Caption?
  }

  /** A page clip: where it starts on the master timeline, how long it lasts
      and its layers, bottom first. */
  datatype PageClip = PageClip(start: real, duration: real, layers: seq<Layer>)

  /** What MoviePy does with one page: whether the image file loads, whether
      the styled caption renders, whether the plain fallback caption renders,
      and whether the final composite is built. */
  datatype RenderEnv = RenderEnv(imageLoads: bool, captionRenders: bool,
                                 fallbackCaptionRenders: bool, composes: bool)

  /** The page's image is drawn: its path is set, non-empty, exists and loads. */
  predicate ShowsImage(p: PageData, existing: set<string>, env: RenderEnv) {
    && p.backgroundPath.Some?
    && p.backgroundPath.value != ""
    && p.backgroundPath.value in existing
    && env.imageLoads
  }

  /** `_create_page_specific_image_clip`. */
  function PictureLayer(cfg: VideoConfig, path: string, duration: real, pageNumber: int): (l: Layer)
    ensures l.Picture? && l.path == path && l.duration == duration
    ensures l.side == ImageSide(cfg, pageNumber) && l.top == ImageTop(cfg, pageNumber)
  {
    Picture(path, ImageSide(cfg, pageNumber), ImageTop(cfg, pageNumber), duration)
  }

  /** `_create_positioned_text_clips`: the styled black caption, or, when it
      fails, a plain 32-point black caption at the same height, or nothing. */
  function CaptionLayers(cfg: VideoConfig, text: string, duration: real, p: PageData, env: RenderEnv): (r: seq<Layer>)
    requires cfg.fps != 0
    ensures |r| <= 1
    ensures |r| == 1 <==> env.captionRenders || env.fallbackCaptionRenders
    ensures forall l :: l in r ==>
      l.Caption? && l.text == text && l.duration == duration && l.top == CaptionTop(cfg, PageNumberOf(p))
    ensures forall l :: l in r ==> l.fadeIn == 0.0 || l.fadeIn <= duration / 3.0
    ensures env.captionRenders ==>
      && r[0].fontSize == p.fontSize.GetOr(cfg.defaultFontSize)
      && r[0].color == "#000000"
      && r[0].boxWidth == Some(CaptionWidth(cfg))
      && r[0].fadeIn == (if p.animation.GetOr(FadeIn) == FadeIn then FadeInLength(cfg, duration) else 0.0)
    ensures !env.captionRenders && env.fallbackCaptionRenders ==>
      r[0].fontSize == 32 && r[0].color == "black" && r[0].boxWidth.None? && r[0].fadeIn == 0.0
  {
    var top := CaptionTop(cfg, PageNumberOf(p));
    if env.captionRenders then
      var fade := if p.animation.GetOr(FadeIn) == FadeIn then FadeInLength(cfg, duration) else 0.0;
      [Caption(text, p.fontSize.GetOr(cfg.defaultFontSize), "#000000", Some(CaptionWidth(cfg)), top, fade, duration)]
    else if env.fallbackCaptionRenders then
      [Caption(text, 32, "black", None, top, 0.0, duration)]
    else []
  }

  /** A page record made by `create_page_data` is captioned in the
      configured font size, in black, across 90% of the width, at the
      page's caption height, fading in for the configured fade length
      capped at a third of the page. */
  lemma CreatedPageCaption(cfg: VideoConfig, text: string, imagePath: string, audioPath: string,
                           duration: real, pageNumber: int, env: RenderEnv)
    requires cfg.fps != 0 && env.captionRenders
    ensures CaptionLayers(cfg, text, duration, CreatePageData(cfg, text, imagePath, audioPath, duration, pageNumber), env)
         == [Caption(text, cfg.defaultFontSize, "#000000", Some(CaptionWidth(cfg)), CaptionTop(cfg, pageNumber),
                     Min(FadeSeconds(cfg), duration / 3.0), duration)]
  {
  }

  /** Stacking a backdrop, at most one picture and at most one caption keeps
      the painting order, and each kind is present exactly when supplied. */
  lemma StackLayers(backdrop: Layer, picture: seq<Layer>, captions: seq<Layer>)
    requires backdrop.Backdrop?
    requires picture == [] || (|picture| == 1 && picture[0].Picture?)
    requires captions == [] || (|captions| == 1 && captions[0].Caption?)
    ensures PaintOrder([backdrop] + picture + captions)
    ensures HasPicture([backdrop] + picture + captions) <==> |picture| == 1
    ensures HasCaption([backdrop] + picture + captions) <==> |captions| == 1
    ensures forall l :: l in [backdrop] + picture + captions <==> l == backdrop || l in picture || l in captions
  {
    var layers := [backdrop] + picture + captions;
    assert forall i :: 1 <= i < 1 + |picture| ==> layers[i] == picture[i - 1];
    assert forall i :: 1 + |picture| <= i < |layers| ==> layers[i] == captions[i - 1 - |picture|];
    if |picture| == 1 {
      assert layers[1] == picture[0];
    }
    if |captions| == 1 {
      assert layers[|layers| - 1] == captions[0];
    }
  }

  /** The layers of a page, bottom first: a white backdrop, then the image
      when it can be shown, then the caption when the text is non-empty. */
  function PageLayers(cfg: VideoConfig, p: PageData, existing: set<string>, env: RenderEnv): (layers: seq<Layer>)
    requires cfg.fps != 0
    ensures PaintOrder(layers)
    ensures layers[0] == Backdrop(cfg.width, cfg.height, DurationOf(p))
    ensures HasPicture(layers) <==> ShowsImage(p, existing, env)
    ensures HasCaption(layers) <==> p.text.GetOr("") != "" && (env.captionRenders || env.fallbackCaptionRenders)
    ensures forall l :: l in layers ==> l.duration == DurationOf(p)
    ensures forall l :: l in layers && l.Picture? ==>
      && ShowsImage(p, existing, env) && l.path == p.backgroundPath.value
      && l.side == ImageSide(cfg, PageNumberOf(p)) && l.top == ImageTop(cfg, PageNumberOf(p))
    ensures forall l :: l in layers && l.Caption? ==>
      [l] == CaptionLayers(cfg, p.text.GetOr(""), DurationOf(p), p, env)
  {
    var duration := DurationOf(p);
    var backdrop := [Backdrop(cfg.width, cfg.height, duration)];
    var picture :=
      if ShowsImage(p, existing, env)
      then [PictureLayer(cfg, p.backgroundPath.value, duration, PageNumberOf(p))]
      else [];
    var text := p.text.GetOr("");
    var captions := if text != "" then CaptionLayers(cfg, text, duration, p, env) else [];
    StackLayers(backdrop[0], picture, captions);
    backdrop + picture + captions
  }

  /** `_create_page_video`: the page's layers, placed at `start` and lasting
      the page's duration, when MoviePy composes them. */
  function ComposePage(cfg: VideoConfig, p: PageData, start: real, existing: set<string>, env: RenderEnv): (r: Option<PageClip>)
    requires cfg.fps != 0
    ensures r.Some? <==> env.composes
    ensures r.Some? ==> r.value.start == start && r.value.duration == DurationOf(p)
    ensures r.Some? ==> PaintOrder(r.value.layers)
    ensures r.Some? ==> r.value.layers[0] == Backdrop(cfg.width, cfg.height, DurationOf(p))
    ensures r.Some? ==> (HasPicture(r.value.layers) <==> ShowsImage(p, existing, env))
    ensures r.Some? ==>
      (HasCaption(r.value.layers) <==>
        p.text.GetOr("") != "" && (env.captionRenders || env.fallbackCaptionRenders))
    ensures r.Some? ==> forall l :: l in r.value.layers && l.Picture? ==>
      l.side == ImageSide(cfg, PageNumberOf(p)) && l.top == ImageTop(cfg, PageNumberOf(p))
    ensures r.Some? ==> forall l :: l in r.value.layers ==> l.duration == DurationOf(p)
    ensures r.Some? ==> forall l :: l in r.value.layers && l.Picture? ==>
      ShowsImage(p, existing, env) && l.path == p.backgroundPath.value
    ensures r.Some? ==> forall l :: l in r.value.layers && l.Caption? ==>
      [l] == CaptionLayers(cfg, p.text.GetOr(""), DurationOf(p), p, env)
  {
    if env.composes then Some(PageClip(start, DurationOf(p), PageLayers(cfg, p, existing, env))) else None
  }

  /** On a composed page with text whose styled caption renders, the top
      layer is that caption: the page's text in its font size, black, 90%
      of the width wide, at the page's caption height. */
  lemma ComposedCaption(cfg: VideoConfig, p: PageData, start: real, existing: set<string>, env: RenderEnv)
    requires cfg.fps != 0 && env.composes && env.captionRenders && p.text.GetOr("") != ""
    ensures var layers := ComposePage(cfg, p, start, existing, env).value.layers;
      && layers[|layers| - 1].Caption?
      && layers[|layers| - 1].text == p.text.value
      && layers[|layers| - 1].fontSize == p.fontSize.GetOr(cfg.defaultFontSize)
      && layers[|layers| - 1].color == "#000000"
      && layers[|layers| - 1].boxWidth == Some(CaptionWidth(cfg))
      && layers[|layers| - 1].top == CaptionTop(cfg, PageNumberOf(p))
  {
  }

  // ---------------------------------------------------------------------
  // Background fit (`_create_background_clip`)

  datatype Size = Size(w: real, h: real)

  /** `_create_background_clip`: scale the image to the canvas height, then
      centre-crop it to the canvas width when too wide, or scale it up to
      the canvas width when too narrow. `None` when the image cannot be
      loaded. */
  function BackgroundFit(cfg: VideoConfig, image: Size, loads: bool): (r: Option<Size>)
    requires image.w > 0.0 && image.h > 0.0 && cfg.width > 0 && cfg.height > 0
    ensures r.Some? <==> loads
    ensures r.Some? ==> r.value.w == cfg.width as real && r.value.h >= cfg.height as real
    ensures r.Some? && image.w * (cfg.height as real) >= (cfg.width as real) * image.h ==>
      r.value.h == cfg.height as real
  {
    if !loads then None
    else
      var w := cfg.width as real;
      var h := cfg.height as real;
      var scaledW := image.w * h / image.h;
      assert scaledW > 0.0;
      assert scaledW * image.h == image.w * h;
      if scaledW > w then Some(Size(w, h))
      else if scaledW < w then
        var grown := h * w / scaledW;
        assert grown * scaledW == h * w;
        assert grown >= h;
        Some(Size(w, grown))
      else Some(Size(scaledW, h))
  }

  // ---------------------------------------------------------------------
  // Fonts (`_get_font_path`)

  const FontCandidates: seq<string> := [
    "/System/Library/Fonts/ヒラギノ角ゴシック W3.ttc",
    "/System/Library/Fonts/Arial.ttf",
    "/System/Library/Fonts/Helvetica.ttc"
  ]

  /** Index of the first of `paths[from..]` that exists, or `|paths|` when none does. */
  function FirstExistingIndex(paths: seq<string>, existing: set<string>, from: nat): (k: nat)
    requires from <= |paths|
    ensures from <= k <= |paths|
    ensures k < |paths| ==> paths[k] in existing
    ensures forall i :: from <= i < k ==> paths[i] !in existing
    decreases |paths| - from
  {
    if from == |paths| || paths[from] in existing then from
    else FirstExistingIndex(paths, existing, from + 1)
  }

  /** The first of `paths` that exists, or `fallback` when none does. */
  function FirstExisting(paths: seq<string>, existing: set<string>, fallback: string): (r: string)
    ensures (forall j :: 0 <= j < |paths| ==> paths[j] !in existing) ==> r == fallback
    ensures (exists j :: 0 <= j < |paths| && paths[j] in existing) ==>
      exists j :: 0 <= j < |paths| && paths[j] == r && r in existing
        && forall i :: 0 <= i < j ==> paths[i] !in existing
  {
    var k := FirstExistingIndex(paths, existing, 0);
    if k < |paths| then paths[k] else fallback
  }

  /** `_get_font_path`: the first candidate font that exists, else "Arial". */
  function FontPath(existing: set<string>): (r: string)
    ensures r == "Arial" || (r in FontCandidates && r in existing)
    ensures FontCandidates[0] in existing ==> r == FontCandidates[0]
  {
    FirstExisting(FontCandidates, existing, "Arial")
  }

  // ---------------------------------------------------------------------
  // Timeline

  /** Total duration of `pages`, each page counting its duration or 3.0. */
  function SumDurations(pages: seq<PageData>): real {
    if |pages| == 0 then 0.0 else SumDurations(pages[..|pages| - 1]) + DurationOf(pages[|pages| - 1])
  }

  /** Appending a page extends the total by that page's duration. */
  lemma SumDurationsAppend(pages: seq<PageData>, p: PageData)
    ensures SumDurations(pages + [p]) == SumDurations(pages) + DurationOf(p)
  {
    assert (pages + [p])[..|pages|] == pages;
  }

  /** Start of page `k` on the master timeline: the durations of pages 0..k-1. */
  function Offset(pages: seq<PageData>, k: nat): (t: real)
    requires k <= |pages|
    ensures k == 0 ==> t == 0.0
    ensures k == |pages| ==> t == SumDurations(pages)
  {
    assert k == |pages| ==> pages[..k] == pages;
    SumDurations(pages[..k])
  }

  /** Page `k` ends exactly where page `k + 1` starts. */
  lemma ClipsAbut(pages: seq<PageData>, k: nat)
    requires k < |pages|
    ensures Offset(pages, k) + DurationOf(pages[k]) == Offset(pages, k + 1)
  {
    assert pages[..k + 1][..k] == pages[..k];
  }

  predicate NonNegativeDurations(pages: seq<PageData>) {
    forall i :: 0 <= i < |pages| ==> DurationOf(pages[i]) >= 0.0
  }

  /** With non-negative durations, later pages never start earlier. */
  lemma {:induction false} OffsetsMonotone(pages: seq<PageData>, j: nat, k: nat)
    requires j <= k <= |pages|
    requires NonNegativeDurations(pages)
    ensures Offset(pages, j) <= Offset(pages, k)
    decreases k - j
  {
    if j < k {
      ClipsAbut(pages, j);
      OffsetsMonotone(pages, j + 1, k);
    }
  }

  /** No two page clips overlap: every page ends no later than any later page starts. */
  lemma NoOverlap(pages: seq<PageData>, j: nat, k: nat)
    requires j < k < |pages|
    requires NonNegativeDurations(pages)
    ensures Offset(pages, j) + DurationOf(pages[j]) <= Offset(pages, k)
  {
    ClipsAbut(pages, j);
    OffsetsMonotone(pages, j + 1, k);
  }

  /** A narration track placed on the timeline. */
  datatype AudioCue = AudioCue(path: string, start: real)

  predicate HasAudio(p: PageData, existing: set<string>) {
    p.audioPath.Some? && p.audioPath.value in existing
  }

  /** The narration of page `p` starting at `start`, when its file exists. */
  function Cue(p: PageData, start: real, existing: set<string>): (c: Option<AudioCue>)
    ensures c.Some? <==> p.audioPath.Some? && p.audioPath.value in existing
    ensures c.Some? ==> c.value.path == p.audioPath.value && c.value.start == start
  {
    if HasAudio(p, existing) then Some(AudioCue(p.audioPath.value, start)) else None
  }

  /** The loop of `generate_video`: one slot per page, holding its clip or
      nothing when the clip could not be built, one narration cue per page
      whose audio file exists, and the cursor, which advances by every
      page's duration whether or not its clip was built. */
  method AssembleTimeline(cfg: VideoConfig, pages: seq<PageData>, existing: set<string>, envs: seq<RenderEnv>)
    returns (slots: seq<Option<PageClip>>, cues: seq<Option<AudioCue>>, end: real)
    requires cfg.fps != 0
    requires |envs| == |pages|
    ensures |slots| == |pages| && |cues| == |pages|
    ensures end == SumDurations(pages)
    ensures forall k :: 0 <= k < |pages| ==> slots[k] == ComposePage(cfg, pages[k], Offset(pages, k), existing, envs[k])
    ensures forall k :: 0 <= k < |pages| ==> cues[k] == Cue(pages[k], Offset(pages, k), existing)
  {
    slots := [];
    cues := [];
    var cursor := 0.0;
    var i := 0;
    while i < |pages|
      invariant 0 <= i <= |pages|
      invariant |slots| == i && |cues| == i
      invariant cursor == Offset(pages, i)
      invariant forall k :: 0 <= k < i ==> slots[k] == ComposePage(cfg, pages[k], Offset(pages, k), existing, envs[k])
      invariant forall k :: 0 <= k < i ==> cues[k] == Cue(pages[k], Offset(pages, k), existing)
    {
      var page := pages[i];
      var clip := ComposePage(cfg, page, cursor, existing, envs[i]);
      slots := slots + [clip];
      cues := cues + [Cue(page, cursor, existing)];
      ClipsAbut(pages, i);
      cursor := cursor + DurationOf(page);
      i := i + 1;
    }
    assert pages[..|pages|] == pages;
    end := cursor;
  }

  /** `generate_video`: without MoviePy, only a placeholder file is written
      and there is no timeline; otherwise the cursor runs over every page,
      the render fails when no page produced a clip, and succeeds when some
      page did and writing the file succeeds. */
  method GenerateVideo(cfg: VideoConfig, pages: seq<PageData>, existing: set<string>, envs: seq<RenderEnv>,
                       moviePyAvailable: bool, placeholderWritable: bool, writeSucceeds: bool)
    returns (ok: bool, timelineEnd: Option<real>)
    requires cfg.fps != 0
    requires |envs| == |pages|
    ensures !moviePyAvailable ==> (ok <==> placeholderWritable)
    ensures moviePyAvailable ==> (ok <==> writeSucceeds && exists k :: 0 <= k < |pages| && envs[k].composes)
    ensures timelineEnd.Some? <==> moviePyAvailable
    ensures timelineEnd.Some? ==> timelineEnd.value == SumDurations(pages)
  {
    if !moviePyAvailable {
      return placeholderWritable, None;
    }
    var slots, cues, end := AssembleTimeline(cfg, pages, existing, envs);
    timelineEnd := Some(end);
    var built := exists k :: 0 <= k < |slots| && slots[k].Some?;
    if !built {
      return false, timelineEnd;
    }
    ok := writeSucceeds;
  }
}

=== FILE: voice.dfy ===
/** Narration timing from the speech synthesiser: the text-length estimate
    used when no audio is available, the fallback ladder of
    `synthesize_voice`, the audio-query parameter overrides, the duration
    read back from a WAV header and the silent fallback file.
    HTTP traffic to the speech server is not modelled: its replies are
    parameters (`SynthesisEnv`). */
module Voice {
  import opened Common
  import opened PyStr

  /** The four configured voice scales (`apis.voicevox.*_scale`, each 1.0 by default). */
  datatype VoiceConfig = VoiceConfig(speedScale: real, pitchScale: real, volumeScale: real, intonationScale: real)

  const DefaultVoiceConfig: VoiceConfig := VoiceConfig(1.0, 1.0, 1.0, 1.0)

  // ---------------------------------------------------------------------
  // Text-length estimate

  /** Characters that add a pause: the Japanese comma, full stop, exclamation and question marks. */
  const PauseMarks: seq<char> := ['、', '。', '！', '？']

  /** Number of pause marks in `text`, each occurrence counted. */
  function PauseCount(text: string): nat {
    CountChar(text, PauseMarks[0]) + CountChar(text, PauseMarks[1])
    + CountChar(text, PauseMarks[2]) + CountChar(text, PauseMarks[3])
  }

  /** Length of `text` once spaces and newlines are removed. */
  function SpokenLength(text: string): nat {
    |RemoveChar(RemoveChar(text, ' '), '\n')|
  }

  /** The clamped estimate before the speed adjustment: 0.4 s per spoken
      character plus 0.3 s per pause mark, limited to [1, 10] seconds. */
  function ClampedEstimate(text: string): (c: real)
    ensures 1.0 <= c <= 10.0
    ensures c == Max(1.0, Min(0.4 * (|text| - CountChar(text, ' ') - CountChar(text, '\n')) as real
                              + 0.3 * PauseCount(text) as real, 10.0))
  {
    Max(1.0, Min(SpokenLength(text) as real * 0.4 + PauseCount(text) as real * 0.3, 10.0))
  }

  lemma DivideBounded(c: real, s: real)
    requires s != 0.0 && 1.0 <= c <= 10.0
    ensures (c / s) * s == c
    ensures s > 0.0 ==> 0.0 < 1.0 / s <= c / s <= 10.0 / s
  {
    if s > 0.0 {
      assert (1.0 / s) * s == 1.0;
      assert c / s - 1.0 / s == (c - 1.0) / s;
      assert 10.0 / s - c / s == (10.0 - c) / s;
    }
  }

  lemma DivideAntitone(c: real, s1: real, s2: real)
    requires 0.0 < s1 <= s2 && c >= 0.0
    ensures c / s2 <= c / s1
  {
    assert c / s1 - c / s2 == c * (s2 - s1) / (s1 * s2);
  }

  /** `estimate_audio_duration`: 0.5 s for blank text (no clamping, no speed
      adjustment); otherwise the clamped estimate divided by the speed scale. */
  function EstimateDuration(text: string, speedScale: real): (r: real)
    requires speedScale != 0.0
    ensures speedScale > 0.0 ==> r > 0.0
    ensures IsBlank(text) ==> r == 0.5
    ensures !IsBlank(text) ==> r == ClampedEstimate(text) / speedScale
    ensures !IsBlank(text) && speedScale > 0.0 ==> 1.0 / speedScale <= r <= 10.0 / speedScale
  {
    if IsBlank(text) then 0.5
    else
      var c := ClampedEstimate(text);
      DivideBounded(c, speedScale);
      c / speedScale
  }

  /** A faster voice never gets a longer estimate for the same text. */
  lemma EstimateSpeedMonotone(text: string, slower: real, faster: real)
    requires 0.0 < slower <= faster
    ensures EstimateDuration(text, faster) <= EstimateDuration(text, slower)
  {
    if !IsBlank(text) {
      var c := ClampedEstimate(text);
      DivideAntitone(c, slower, faster);
      assert EstimateDuration(text, faster) == c / faster;
      assert EstimateDuration(text, slower) == c / slower;
    }
  }

  // ---------------------------------------------------------------------
  // Audio query

  /** A JSON value of the speech server's audio query; nested structures
      (accent phrases) are opaque to the model. */
  datatype Json = JNum(n: real) | JText(s: string) | JOther

  type AudioQuery = map<string, Json>

  const SpeedKey: string := "speedScale"
  const PitchKey: string := "pitchScale"
  const VolumeKey: string := "volumeScale"
  const IntonationKey: string := "intonationScale"

  /** The configured scale that belongs to query field `key`, if `key` is one of the four scale fields. */
  function ScaleFor(cfg: VoiceConfig, key: string): Option<real> {
    if key == SpeedKey then Some(cfg.speedScale)
    else if key == PitchKey then Some(cfg.pitchScale)
    else if key == VolumeKey then Some(cfg.volumeScale)
    else if key == IntonationKey then Some(cfg.intonationScale)
    else None
  }

  /** Field `key` is written by `ApplyScales`: it is a scale field whose configured value is not 1.0. */
  predicate Overridden(cfg: VoiceConfig, key: string) {
    ScaleFor(cfg, key).Some? && ScaleFor(cfg, key).value != 1.0
  }

  function SetIfChanged(q: AudioQuery, key: string, scale: real): (r: AudioQuery)
    ensures forall k :: k in r <==> k in q || (k == key && scale != 1.0)
    ensures forall k :: k in r && k == key && scale != 1.0 ==> r[k] == JNum(scale)
    ensures forall k :: k in r && !(k == key && scale != 1.0) ==> r[k] == q[k]
  {
    if scale != 1.0 then q[key := JNum(scale)] else q
  }

  function AdjustQuery(q: AudioQuery, cfg: VoiceConfig): (r: AudioQuery)
    ensures q.Keys <= r.Keys <= q.Keys + {SpeedKey, PitchKey, VolumeKey, IntonationKey}
  {
    var q1 := SetIfChanged(q, SpeedKey, cfg.speedScale);
    var q2 := SetIfChanged(q1, PitchKey, cfg.pitchScale);
    var q3 := SetIfChanged(q2, VolumeKey, cfg.volumeScale);
    SetIfChanged(q3, IntonationKey, cfg.intonationScale)
  }

  lemma AdjustQueryAt(q: AudioQuery, cfg: VoiceConfig, key: string)
    ensures key in AdjustQuery(q, cfg) <==> key in q || Overridden(cfg, key)
    ensures key in AdjustQuery(q, cfg) && Overridden(cfg, key) ==>
      AdjustQuery(q, cfg)[key] == JNum(ScaleFor(cfg, key).value)
    ensures key in AdjustQuery(q, cfg) && !Overridden(cfg, key) ==> AdjustQuery(q, cfg)[key] == q[key]
  {
    assert SpeedKey != PitchKey && SpeedKey != VolumeKey && SpeedKey != IntonationKey;
    assert PitchKey != VolumeKey && PitchKey != IntonationKey && VolumeKey != IntonationKey;
  }

  /** The adjustment `_create_audio_query` makes to the server's query: each
      scale field is overwritten only when its configured value differs from
      1.0; every other field is passed through untouched. */
  function ApplyScales(q: AudioQuery, cfg: VoiceConfig): (r: AudioQuery)
    ensures forall key :: key in r <==> key in q || Overridden(cfg, key)
    ensures forall key :: key in r && Overridden(cfg, key) ==> r[key] == JNum(ScaleFor(cfg, key).value)
    ensures forall key :: key in r && !Overridden(cfg, key) ==> r[key] == q[key]
  {
    forall key ensures key in AdjustQuery(q, cfg) <==> key in q || Overridden(cfg, key) {
      AdjustQueryAt(q, cfg, key);
    }
    forall key | key in AdjustQuery(q, cfg)
      ensures Overridden(cfg, key) ==> AdjustQuery(q, cfg)[key] == JNum(ScaleFor(cfg, key).value)
      ensures !Overridden(cfg, key) ==> AdjustQuery(q, cfg)[key] == q[key]
    {
      AdjustQueryAt(q, cfg, key);
    }
    AdjustQuery(q, cfg)
  }

  /** The adjusted query is empty, and so treated as a failed query, exactly
      when the server returned an empty query and every scale is 1.0. */
  lemma AdjustedQueryEmptyIff(q: AudioQuery, cfg: VoiceConfig)
    ensures |ApplyScales(q, cfg)| == 0 <==>
      |q| == 0 && cfg.speedScale == 1.0 && cfg.pitchScale == 1.0
      && cfg.volumeScale == 1.0 && cfg.intonationScale == 1.0
  {
    var r := ApplyScales(q, cfg);
    assert q.Keys <= r.Keys;
    if |r| == 0 {
      assert r.Keys == {};
      assert !Overridden(cfg, SpeedKey) && !Overridden(cfg, PitchKey);
      assert !Overridden(cfg, VolumeKey) && !Overridden(cfg, IntonationKey);
    } else {
      var k :| k in r;
      assert k in q || Overridden(cfg, k);
    }
  }

  // ---------------------------------------------------------------------
  // WAV files

  /** The header fields `_get_audio_duration` reads. */
  datatype WavHeader = WavHeader(frames: nat, frameRate: nat)

  /** `_get_audio_duration`: frames / frame rate, or 3.0 s when the file
      cannot be read (`None`) or the division fails (a zero frame rate). */
  function MeasuredDuration(wav: Option<WavHeader>): (r: real)
    ensures r >= 0.0
    ensures (wav.None? || wav.value.frameRate == 0) ==> r == 3.0
    ensures wav.Some? && wav.value.frameRate > 0 ==> r * wav.value.frameRate as real == wav.value.frames as real
  {
    if wav.None? || wav.value.frameRate == 0 then 3.0
    else wav.value.frames as real / wav.value.frameRate as real
  }

  /** Sample rate of the silent fallback file. */
  const SilenceRate: int := 44100

  /** `int(44100 * duration)`: the number of zero samples written. */
  function SilentSamples(seconds: real): (n: int)
    ensures seconds >= 0.0 ==> 0 <= n && n as real <= SilenceRate as real * seconds < n as real + 1.0
    ensures seconds < 0.0 ==> n <= 0
  {
    Trunc(SilenceRate as real * seconds)
  }

  /** What `synthesize_voice` returns: the success flag and a duration in seconds. */
  datatype Narration = Narration(ok: bool, seconds: real)

  /** `_create_silent_audio`: always reports the requested duration; the flag
      says whether the file was written (a negative sample count makes the
      array allocation fail). */
  function SilentAudio(seconds: real, writable: bool): (r: Narration)
    ensures r.seconds == seconds
    ensures seconds >= 0.0 ==> (r.ok <==> writable)
    ensures seconds <= -1.0 / SilenceRate as real ==> !r.ok
  {
    Narration(writable && SilentSamples(seconds) >= 0, seconds)
  }

  /** What the speech server and the file system do during one call of
      `synthesize_voice`: the audio query it returns (`None` when the request
      fails or raises), whether synthesis and writing the WAV succeed, the
      header read back, and whether a silent file could be written. */
  datatype SynthesisEnv = SynthesisEnv(
    queryReply: Option<AudioQuery>,
    synthesized: bool,
    wav: Option<WavHeader>,
    silenceWritable: bool)

  /** Every step of the real synthesis path succeeds. A query that is empty
      after adjustment is falsy in the source and counts as a failure. */
  predicate FullSuccess(cfg: VoiceConfig, env: SynthesisEnv) {
    && env.queryReply.Some?
    && |ApplyScales(env.queryReply.value, cfg)| > 0
    && env.synthesized
  }

  /** `synthesize_voice`, a fallback ladder: blank text gives 1.0 s of
      silence, any failure gives 3.0 s of silence, and only full success
      reports the measured duration. */
  function Synthesize(text: string, cfg: VoiceConfig, env: SynthesisEnv): (r: Narration)
    ensures IsBlank(text) ==> r == Narration(env.silenceWritable, 1.0)
    ensures !IsBlank(text) && !FullSuccess(cfg, env) ==> r == Narration(env.silenceWritable, 3.0)
    ensures !IsBlank(text) && FullSuccess(cfg, env) ==> r == Narration(true, MeasuredDuration(env.wav))
  {
    if IsBlank(text) then SilentAudio(1.0, env.silenceWritable)
    else match env.queryReply
      case None => SilentAudio(3.0, env.silenceWritable)
      case Some(reply) =>
        var query := ApplyScales(reply, cfg);
        if |query| == 0 then SilentAudio(3.0, env.silenceWritable)
        else if !env.synthesized then SilentAudio(3.0, env.silenceWritable)
        else Narration(true, MeasuredDuration(env.wav))
  }

  /** Every narration lasts a non-negative time. */
  lemma NarrationNonNegative(text: string, cfg: VoiceConfig, env: SynthesisEnv)
    ensures Synthesize(text, cfg, env).seconds >= 0.0
  {
  }

  /** A reported failure only ever comes from the silent fallback failing to
      write, and then the duration is one of the two fallback lengths. */
  lemma SynthesisFailureIsFailedSilence(text: string, cfg: VoiceConfig, env: SynthesisEnv)
    ensures !Synthesize(text, cfg, env).ok ==>
      !env.silenceWritable && Synthesize(text, cfg, env).seconds in {1.0, 3.0}
  {
  }
}
